=== FILE: README.md ===
# Zabbix host report: bookkeeping model

`export-gerencial.py` exports one Zabbix host's configuration and alerts and
writes them as an HTML report and an Excel workbook. This project models, in
Dafny, the pure bookkeeping between the fetched records and the rendered
cells:

- the code-to-label tables with their "Desconhecido" fallback;
- the statistics of `gerar_estatisticas`: status counts, the per-type,
  per-value-type and per-priority frequency tables, and the severity card and
  bar charts built from them;
- the row order of the item and trigger tables, which is Python's stable
  `sorted` with a case-insensitive key;
- the "Duração" cell, which shows days, hours and minutes since a problem
  started;
- the tag, status, acknowledgement and fill cells of each row;
- the active-problems table, whose placeholder row appears when there are no
  problems;
- the "top 20" ranking of past alerts, which is `Counter.most_common(20)`.

Modules follow that structure:

- `Tables`: the reference tables.
- `Records`: items, triggers, problems, events and tags.
- `Counter`: Python's `Counter`, with its insertion order and `most_common`.
- `StableSort` and `Orders`: `sorted`, and the string and tuple orders it
  uses.
- `Statistics`, `ReportOrder`, `Duration`, `Rows` and `Ranking`: the report
  logic.
- `Seqs` and `Decimal`: sequence and decimal-digit helpers.

Modelling conventions:

- A field that the source reads with the same default everywhere is stored
  with that default applied (a problem's `severity` is "0" when absent).
- A field that the source reads with different defaults in different places
  is an `Option`. The main case is `status`: it defaults to "0" for the HTML
  label but is compared without a default elsewhere.
- Timestamps are integers of seconds.
- `now` is a parameter, because the source reads the clock.
- Python's floor `//` and `%` have positive divisors here, where Dafny's
  Euclidean operators agree with them.

Two discrepancies between the two output formats are modelled as written
rather than corrected:

- A record without a status is labelled "Ativo" in the HTML report but styled
  as disabled there, and written as "Desabilitado" in the spreadsheet
  (`Rows.MissingStatusExample`).
- A single tag with an empty name and no value, or an empty value, is a chip
  in HTML but "-" in the spreadsheet. With a non-empty value both show
  ":value" (`Rows.EmptyTagNameDiffers`).

## Model

| member | source | states |
|---|---|---|
| `Tables.ItemTypeLabel` | export-gerencial.py:24-43 | The label is "Desconhecido" exactly when the type code is not in the table, and is otherwise one of the table's labels. |
| `Tables.ValueTypeLabel` | export-gerencial.py:45-51 | The same for value types: "Desconhecido" exactly for unknown codes. |
| `Tables.PriorityBadge` | export-gerencial.py:53-60 | The badge is the fallback ("Desconhecido", "#888") exactly when the priority code is unknown. |
| `Tables.StatusBadge` | export-gerencial.py:62-65 | The badge is the fallback exactly when the status code is unknown. |
| `Tables.PriorityCode` | export-gerencial.py:168 | A priority's raw code is a key of the priority table, and `int()` of it gives the priority back. |
| `Statistics.ItemStatistics` | export-gerencial.py:154-163 | The item total is the list length. Active plus disabled never exceeds it. Each frequency table sums to it. The preprocessing and tag counts are bounded by it. |
| `Statistics.TriggerStatistics` | export-gerencial.py:164-171 | The trigger total is the list length. Active plus disabled never exceeds it. The priority table sums to it. |
| `Statistics.ItemCountsStep` | export-gerencial.py:157-162 | One more item adds one to the total. It adds one to `ativos` exactly when its status is "0", to `desabilitados` exactly when it is "1", to `com_preprocessing` exactly when it has a preprocessing step, and to `com_tags` exactly when it has a tag. |
| `Statistics.TriggerCountsStep` | export-gerencial.py:165-170 | One more trigger adds one to the total. It adds one to `ativas` exactly for status "0", to `desabilitadas` exactly for "1", to `com_dependencias` exactly when it has a dependency, and to `com_tags` exactly when it has a tag. |
| `Statistics.ComputeStatistics` | export-gerencial.py:153-173 | `gerar_estatisticas` counts every item and every trigger once: in its list's total and in each frequency table. |
| `Statistics.ItemStatusCounts` | export-gerencial.py:157-158 | Active plus disabled plus items with any other or missing status equals the total. Active plus disabled equals the total iff every status is "0" or "1". |
| `Statistics.TypeTableShape` | export-gerencial.py:159 | Each item lands in exactly one bucket: no label is repeated, every item's label is a key, and every key is a table label or "Desconhecido". |
| `Statistics.TypeBucketKnown` | export-gerencial.py:159 | A known type's bucket counts exactly the items with that type code. |
| `Statistics.TypeBucketUnknown` | export-gerencial.py:159 | The "Desconhecido" bucket counts exactly the items whose type code the table lacks. |
| `Statistics.ValueTypeTableShape` | export-gerencial.py:160 | The value-type table has the same one-bucket-per-item shape. |
| `Statistics.ValueTypeBucketKnown` | export-gerencial.py:160 | A known value type's bucket counts exactly the items with that code. |
| `Statistics.ValueTypeBucketUnknown` | export-gerencial.py:160 | The "Desconhecido" value-type bucket counts exactly the items with unknown codes. |
| `Statistics.PriorityBucket` | export-gerencial.py:168 | The bucket of priority p counts exactly the triggers of priority p. |
| `Statistics.MissingPriorityCountsAsZero` | export-gerencial.py:168 | Triggers without a priority are counted under "0", together with the priority-0 triggers. |
| `Statistics.PrioritySummaryTotal` | export-gerencial.py:648-651 | The six rows "5".."0" of the severity card add up to the trigger total. |
| `Statistics.PrioritySummary` | export-gerencial.py:648-650 | Six rows, highest priority first: row i shows the badge of priority 5 − i and its count, 0 when the priority never occurs. |
| `Statistics.TypeChartScale` | export-gerencial.py:673-677 | The type chart has at most 8 bars. Its scale is positive, so no division by zero, and no bar exceeds it. For a non-empty host the first bar holds the largest count of the whole type table. |
| `Statistics.ValueChartScale` | export-gerencial.py:693-697 | The value-type scale is positive and no bar exceeds it. For a non-empty host the first bar is the full-width one. |
| `Statistics.ItemStatisticsExample` | export-gerencial.py:154-163 | One active and one disabled agent item give totals 2/1/1 and the type table [("Zabbix agent", 2)]. |
| `Statistics.TriggerStatisticsExample` | export-gerencial.py:164-171 | Triggers of priorities 5, 3, 3 give the priority table [("5", 1), ("3", 2)], in first-seen order. |
| `Counter.Tally` | export-gerencial.py:159 | `Counter(...)`: no repeated keys, each key's count is its multiplicity in the input, and the counts sum to the input length. |
| `Counter.TallyFirstSeen` | export-gerencial.py:168 | Counter keys are listed in the order of their first occurrence. |
| `Counter.Bump` | export-gerencial.py:159 | Counting one element: a new key is appended, only that key's count grows by one, and the total grows by one. |
| `Counter.Ranked` | export-gerencial.py:697 | `most_common()` is a permutation of the entries, with counts non-increasing. Entries of equal count keep their counter order. |
| `Counter.MostCommon` | export-gerencial.py:897 | `most_common(n)` has min(n, number of keys) entries, drawn from the counter, with counts non-increasing; an entry left out means all n places are taken by entries whose counts are at least its own; among equal counts the kept entries are the first ones in counter order, in that order. |
| `Counter.MostCommonTieExample` | export-gerencial.py:674 | With two keys counted once each, `most_common(1)` keeps the first-counted key, and `most_common(2)` lists both in counter order. |
| `Counter.RankedTie` | export-gerencial.py:896-897 | In `most_common()` of `Counter(s)`, of two entries with equal counts the one whose key occurs first in `s` is listed first. |
| `Counter.MostCommonHeadIsMax` | export-gerencial.py:674-675 | The first entry of `most_common(n)` holds the largest count of the whole counter. |
| `Orders.Lower` | export-gerencial.py:183 | `.lower()` on ASCII: same length, no uppercase left, letters shifted, everything else unchanged. |
| `Orders.LexLeIsTotalOrder` | export-gerencial.py:183 | Python's string comparison is a total order, so `sorted` on a string key is well defined. |
| `Orders.PriorityThenTextIsTotalOrder` | export-gerencial.py:185 | The trigger key (priority descending, then description) is a total order. |
| `StableSort.SortBy` | export-gerencial.py:183 | `sorted` returns a permutation, ordered by key, with equal keys in input order. |
| `StableSort.SortedStableUnique` | export-gerencial.py:183 | Those three properties determine the result: two key-ordered, stable arrangements are equal. |
| `StableSort.SortByIdempotent` | export-gerencial.py:1082 | Sorting a sorted list changes nothing. |
| `ReportOrder.SortItems` | export-gerencial.py:183 | Items are a permutation of the input, non-decreasing by lower-cased name, with equal names in input order (also line 1082). |
| `ReportOrder.SortTriggers` | export-gerencial.py:185 | Triggers are a permutation, priority non-increasing, and lower-cased description non-decreasing within a priority; stable (also line 1129). |
| `ReportOrder.SortItemsUnique` | export-gerencial.py:1082 | Any ordered, stable permutation of the items is exactly `SortItems`. |
| `ReportOrder.SortTriggersUnique` | export-gerencial.py:1129 | Any ordered, stable permutation of the triggers is exactly `SortTriggers`. |
| `ReportOrder.SortItemsIdempotent` | export-gerencial.py:1082 | Re-sorting the sorted items changes nothing. |
| `ReportOrder.SortTriggersIdempotent` | export-gerencial.py:1129 | Re-sorting the sorted triggers changes nothing. |
| `ReportOrder.SortItemsExample` | export-gerencial.py:183 | Names "b", "A", "a" sort to "A", "a", "b": case is ignored, and the case-equal pair keeps input order. |
| `Decimal.Digits` | export-gerencial.py:860 | `str(n)` is a non-empty string of digits with no leading zero. |
| `Decimal.ParseDigits` | export-gerencial.py:860 | Reading a rendered natural back gives the natural. |
| `Duration.Decompose` | export-gerencial.py:856-858 | d, h, m satisfy h < 24, m < 60 and d·86400 + h·3600 + m·60 ≤ s < that + 60. The days are non-negative iff s is. |
| `Duration.DurationLabel` | export-gerencial.py:851-866 | The cell is "-" exactly when the start time is missing (0). |
| `Duration.DurationRoundTrip` | export-gerencial.py:859-864 | Read back, the cell gives exactly the whole minutes elapsed; only the seconds are lost. |
| `Duration.DurationUnitsShown` | export-gerencial.py:859-864 | 'd' appears iff at least a day has passed, 'h' iff at least an hour, and 'm' always. |
| `Duration.DurationExamples` | export-gerencial.py:851-866 | 0 s gives "0m", 3600 s "1h 0m", 90000 s "1d 1h 0m", and a missing start "-". |
| `Duration.ClockAheadWraps` | export-gerencial.py:855-858 | A start one minute in the future shows "23h 59m", because floor division wraps it. |
| `Rows.TagLabelRoundTrip` | export-gerencial.py:746 | Parsing a tag label gives back the tag name and value, provided the name has no ':'. An empty value reads as none. |
| `Rows.TagLabelInjective` | export-gerencial.py:1088 | For ':'-free names, two tags have the same label iff they show the same name and value. |
| `Rows.TagLabel` | export-gerencial.py:746 | A tag label starts with the tag name, and is exactly the name iff the value is missing or empty (also line 1088). |
| `Rows.HtmlTagCell` | export-gerencial.py:744-758 | The HTML cell is "-" iff there are no tags; otherwise there is one chip per tag, in order. |
| `Rows.SheetTagCell` | export-gerencial.py:1088 | The sheet tags cell is never empty, and is "-" when there are no tags. |
| `Rows.SheetTagCellDash` | export-gerencial.py:1088-1098 | The sheet cell is "-" iff there are no tags, or a single tag whose label is "" or "-". |
| `Rows.SheetTagCellRoundTrip` | export-gerencial.py:1135 | When no label is empty, "-" or contains ',', splitting the sheet cell on ", " gives back the tag labels. |
| `Rows.TagCellsAgree` | export-gerencial.py:1143 | When no label is "" or "-", both reports agree on "no tags", and the sheet cell is the HTML chips joined with ", ". |
| `Rows.EmptyTagNameDiffers` | export-gerencial.py:758 | A single tag with an empty name and no or an empty value is a chip in HTML but "-" in the sheet. With value "v" both show ":v". |
| `Rows.HtmlStatusBadge` | export-gerencial.py:740 | The HTML label is "Ativo" for "0" or missing, "Desabilitado" for "1", and the fallback otherwise. It matches the sheet iff the status is "0" or "1". |
| `Rows.HtmlStatusActive` | export-gerencial.py:751 | The HTML status cell is styled active iff the raw status, without a default, has the "Ativo" badge. |
| `Rows.MissingStatusExample` | export-gerencial.py:740-751 | A missing status is labelled "Ativo" in HTML but styled as disabled, and written "Desabilitado" in the sheet. |
| `Rows.SheetStatus` | export-gerencial.py:1084 | The sheet says "Ativo" exactly when the HTML cell is styled active (status exactly "0"), and "Desabilitado" otherwise. |
| `Rows.StatusFill` | export-gerencial.py:1104-1108 | The items sheet's status cell is green (C8E6C9) exactly for "Ativo", and always filled. |
| `Rows.TriggerPriorityFill` | export-gerencial.py:1150-1160 | Priorities "1".."5" get their colour; any other code gets no fill. |
| `Rows.ProblemSeverityFill` | export-gerencial.py:1209-1215 | Only severities "5", "4" and "3" are filled, in the same colour as the trigger priority. |
| `Rows.AckLabel` | export-gerencial.py:868 | "Sim" exactly for an acknowledged flag of "1", "Não" otherwise (also line 1201). |
| `Rows.ProblemRowOf` | export-gerencial.py:847-868 | The duration is "-" iff the start time is missing, and the row is acknowledged iff the flag is "1". |
| `Rows.ProblemLines` | export-gerencial.py:846-886 | No problems gives exactly the single placeholder line. Otherwise there is one row per problem, in order. |
| `Rows.PlaceholderIffEmpty` | export-gerencial.py:1216-1220 | The placeholder appears iff there are no problems, and the table has max(1, #problems) lines. |
| `Ranking.AlertCounter` | export-gerencial.py:896 | The alert counter is a tally of the event names. |
| `Ranking.TopAlerts` | export-gerencial.py:897 | At most 20 rows: min(20, distinct names). No name repeats, and counts are non-increasing. |
| `Ranking.TopAlertsCounts` | export-gerencial.py:1240 | Each listed count is the exact number of events with that name, and at least 1. |
| `Ranking.TopAlertsComplete` | export-gerencial.py:1239-1240 | An unlisted name that occurs is beaten: all 20 places are taken, each by a name with a larger count, or with the same count and an earlier first event. |
| `Ranking.TopAlertsTies` | export-gerencial.py:895-897 | Names with equal counts are listed in the order of their first event. |
| `Ranking.TopRows` | export-gerencial.py:920 | Row i has position i + 1 and shows the name and count of the i-th ranked entry. |
| `Ranking.TopRowsRoundTrip` | export-gerencial.py:920-927 | Reading the names and counts back from the rows gives the ranking unchanged. |
| `Ranking.AlertsSection` | export-gerencial.py:1228-1243 | The section exists iff there are events. It then lists between 1 and 20 rows, whose names and counts are exactly `most_common(20)` of the event names. |
| `Ranking.AlertsSectionRows` | export-gerencial.py:1238-1246 | Rows are numbered 1, 2, …. Each shows the exact number of events with its name, at least one. No two rows share a name, and counts never increase down the table. |
| `Ranking.AlertsExample` | export-gerencial.py:1239-1240 | Events A, A, B, C, C, C rank as C:3, A:2, B:1. |

## Left out

- Zabbix API calls, authentication, the command line, JSON files and file writes: these are I/O outside the bookkeeping layer.
- HTML markup, CSS and openpyxl styling: only the cell texts and fill colours are modelled. Column widths, fonts and borders are not.
- Percentages (`count / total * 100` and bar widths) are floating point. Only their denominators are modelled: the positive bar scales, and the event total (the section exists only when it is positive).
- The "Início" cell formats the start time with `datetime.fromtimestamp`, which depends on the local time zone. It is modelled as the raw timestamp or `None`.
- The HTML "no active problems" row has green text and no fill. The model's placeholder carries the spreadsheet's green fill (line 1218); text colours are styling.
- `datetime.now()` is the `now` parameter of `Duration.DurationLabel`.
- `Rows.ProblemLines`: reads the clock once per table, as `now`. The source calls `datetime.now()` again for every problem row (lines 855 and 1188), so two rows of one table, and the two reports, can be timed against slightly different clocks.
- `Orders.Lower`: does not model Unicode `str.lower()`, only ASCII letters. Names are compared code point by code point, as Python does.
- `Records.PriorityOf`: priorities are modelled as the values 0..5 with their canonical one-digit codes, the values the monitoring system sends. Non-canonical codes that `int()` still accepts (" 5", "+5", "05") and codes it rejects, which raise in the source, are not modelled.
- The host summary, `export_info`, item delay, history, key, expression and comment cells: these are copied from the record with a default and carry no logic beyond it.

=== FILE: counter.dfy ===
/** Python's `collections.Counter` as the report uses it: counting keys in
    first-seen order, looking a count up (zero for a missing key), and
    `most_common`, which orders entries by count, largest first, keeping
    first-seen order among equal counts. This is the one grouping-and-ranking
    utility behind the items-by-type, items-by-value-type, triggers-by-priority
    and events-by-name tables. */
module Counter {
  import opened Seqs
  import opened Orders
  import opened StableSort

  /** Entries `(key, count)` in the order their keys were first inserted. */
  type Counter<K> = seq<(K, nat)>

  function CountOf<K>(e: (K, nat)): nat { e.1 }

  /** The keys of `t`, in entry order. */
  function Keys<K>(t: Counter<K>): (ks: seq<K>)
    ensures |ks| == |t|
  {
    seq(|t|, i requires 0 <= i < |t| => t[i].0)
  }

  ghost predicate DistinctKeys<K>(t: Counter<K>) {
    forall i, j :: 0 <= i < j < |t| ==> t[i].0 != t[j].0
  }

  /** `counter[k]`: the count of `k`, zero for a key that was never counted. */
  function Get<K(==)>(t: Counter<K>, k: K): nat
  {
    if |t| == 0 then 0
    else if t[0].0 == k then t[0].1
    else Get(t[1..], k)
  }

  /** The sum of all counts. */
  function Total<K>(t: Counter<K>): nat
  {
    if |t| == 0 then 0 else t[0].1 + Total(t[1..])
  }

  /** In a counter without repeated keys, looking up an entry's key finds that entry. */
  lemma {:induction false} GetAt<K>(t: Counter<K>, i: nat)
    requires DistinctKeys(t)
    requires i < |t|
    ensures Get(t, t[i].0) == t[i].1
  {
    if i != 0 {
      GetAt(t[1..], i - 1);
    }
  }

  /** A key with a non-zero count is one of the counter's keys. */
  lemma {:induction false} GetPositive<K>(t: Counter<K>, k: K)
    requires Get(t, k) > 0
    ensures k in Keys(t)
  {
    assert Keys(t)[0] == t[0].0;
    if t[0].0 != k {
      GetPositive(t[1..], k);
      var i :| 0 <= i < |t[1..]| && Keys(t[1..])[i] == k;
      assert Keys(t)[i + 1] == t[i + 1].0 == t[1..][i].0 == Keys(t[1..])[i];
    }
  }

  /** A key outside the counter has count zero. */
  lemma GetAbsent<K>(t: Counter<K>)
    ensures forall k :: k !in Keys(t) ==> Get(t, k) == 0
  {
    forall k | k !in Keys(t) ensures Get(t, k) == 0 {
      if Get(t, k) > 0 {
        GetPositive(t, k);
      }
    }
  }

  /** Looking up, listing and summing a counter with one entry in front. */
  lemma ConsEntry<K>(e: (K, nat), rest: Counter<K>)
    ensures ([e] + rest)[1..] == rest
    ensures Keys([e] + rest) == [e.0] + Keys(rest)
    ensures forall j :: Get([e] + rest, j) == if e.0 == j then e.1 else Get(rest, j)
    ensures Total([e] + rest) == e.1 + Total(rest)
  {
    assert ([e] + rest)[1..] == rest;
  }

  /** `counter[k] += 1`: a new key is appended with count 1, a known key's count grows. */
  function Bump<K(==, !new)>(t: Counter<K>, k: K): (r: Counter<K>)
    ensures Keys(r) == if k in Keys(t) then Keys(t) else Keys(t) + [k]
    ensures forall j :: Get(r, j) == Get(t, j) + (if j == k then 1 else 0)
    ensures Total(r) == Total(t) + 1
  {
    if |t| == 0 then [(k, 1)]
    else
      ConsEntry(t[0], t[1..]);
      assert [t[0]] + t[1..] == t;
      if t[0].0 == k then
        ConsEntry((k, t[0].1 + 1), t[1..]);
        [(k, t[0].1 + 1)] + t[1..]
      else
        var rest := Bump(t[1..], k);
        ConsEntry(t[0], rest);
        [t[0]] + rest
  }

  /** `t` counts the elements of `s`: no repeated keys and the right count
      for every key. */
  ghost predicate IsTallyOf<K(!new)>(s: seq<K>, t: Counter<K>) {
    && DistinctKeys(t)
    && (forall k :: Get(t, k) == multiset(s)[k])
    && Total(t) == |s|
  }

  /** Every key occurs in `s`, and keys are listed by their first position in `s`. */
  ghost predicate FirstSeenOrder<K>(s: seq<K>, ks: seq<K>) {
    && (forall i :: 0 <= i < |ks| ==> ks[i] in s)
    && (forall i, j :: 0 <= i < j < |ks| ==> ks[i] in s && ks[j] in s && IndexOf(s, ks[i]) < IndexOf(s, ks[j]))
  }

  /** Appending to `s` keeps the first-seen order of keys already in `s`. */
  lemma FirstSeenOrderAppend<K>(p: seq<K>, x: K, ks: seq<K>)
    requires FirstSeenOrder(p, ks)
    ensures FirstSeenOrder(p + [x], ks)
    ensures forall i :: 0 <= i < |ks| ==> IndexOf(p + [x], ks[i]) < |p|
  {
    forall i | 0 <= i < |ks| ensures ks[i] in p + [x] && IndexOf(p + [x], ks[i]) == IndexOf(p, ks[i]) {
      IndexOfAppend(p, x, ks[i]);
    }
  }

  /** A new element appended to `s` is seen after every earlier key. */
  lemma FirstSeenOrderNew<K>(p: seq<K>, x: K, ks: seq<K>)
    requires FirstSeenOrder(p, ks)
    requires x !in p
    ensures FirstSeenOrder(p + [x], ks + [x])
  {
    FirstSeenOrderAppend(p, x, ks);
    IndexOfUnique(p + [x], x, |p|);
    var ks' := ks + [x];
    forall i, j | 0 <= i < j < |ks'|
      ensures ks'[i] in p + [x] && ks'[j] in p + [x] && IndexOf(p + [x], ks'[i]) < IndexOf(p + [x], ks'[j])
    {
      if j == |ks| {
        assert ks'[i] == ks[i];
      } else {
        assert ks'[i] == ks[i] && ks'[j] == ks[j];
      }
    }
  }

  /** Bumping keeps keys distinct: a known key stays in place, a new one comes last. */
  lemma BumpDistinct<K(!new)>(t: Counter<K>, k: K)
    requires DistinctKeys(t)
    ensures DistinctKeys(Bump(t, k))
  {
    var r := Bump(t, k);
    forall i, j | 0 <= i < j < |r| ensures r[i].0 != r[j].0 {
      assert Keys(r)[i] == r[i].0 && Keys(r)[j] == r[j].0;
      assert Keys(t)[i] == t[i].0;
      if j < |t| {
        assert Keys(t)[j] == t[j].0;
      }
    }
  }

  /** Counting one more element keeps a counter a tally of the longer sequence. */
  lemma TallyStep<K(!new)>(p: seq<K>, x: K, t0: Counter<K>)
    requires IsTallyOf(p, t0)
    ensures IsTallyOf(p + [x], Bump(t0, x))
  {
    var r := Bump(t0, x);
    BumpDistinct(t0, x);
    assert multiset(p + [x]) == multiset(p) + multiset{x};
  }

  /** `Counter(s)`: every element of `s` counted, keys in first-seen order. */
  function Tally<K(==, !new)>(s: seq<K>): (t: Counter<K>)
    ensures IsTallyOf(s, t)
  {
    if |s| == 0 then []
    else
      var p := s[..|s| - 1];
      var x := s[|s| - 1];
      assert s == p + [x];
      var t0 := Tally(p);
      TallyStep(p, x, t0);
      Bump(t0, x)
  }

  /** `Counter(f(x) for x in s)`: one entry per distinct image, in first-seen
      order, every element's image among the keys, and each key counting the
      elements that map to it. */
  lemma TallyOfMap<A, B(!new)>(s: seq<A>, f: A -> B)
    ensures var t := Tally(Map(s, f));
      && DistinctKeys(t)
      && (forall i :: 0 <= i < |s| ==> f(s[i]) in Keys(t))
      && (forall j :: 0 <= j < |t| ==> exists i :: 0 <= i < |s| && f(s[i]) == t[j].0)
      && (forall k :: Get(t, k) == CountIf(s, x => f(x) == k))
  {
    TallyImagesCovered(s, f);
    TallyKeysAreImages(s, f);
    forall k ensures Get(Tally(Map(s, f)), k) == CountIf(s, x => f(x) == k) {
      CountMapped(s, f, k);
    }
  }

  /** Every element's image is a key of `Counter(f(x) for x in s)`. */
  lemma TallyImagesCovered<A, B(!new)>(s: seq<A>, f: A -> B)
    ensures forall i :: 0 <= i < |s| ==> f(s[i]) in Keys(Tally(Map(s, f)))
  {
    var labels := Map(s, f);
    var t := Tally(labels);
    forall i | 0 <= i < |s| ensures f(s[i]) in Keys(t) {
      assert labels[i] in multiset(labels);
      GetPositive(t, labels[i]);
    }
  }

  /** Every key of `Counter(f(x) for x in s)` is the image of some element. */
  lemma TallyKeysAreImages<A, B(!new)>(s: seq<A>, f: A -> B)
    ensures var t := Tally(Map(s, f));
      forall j :: 0 <= j < |t| ==> exists i :: 0 <= i < |s| && f(s[i]) == t[j].0
  {
    var labels := Map(s, f);
    var t := Tally(labels);
    TallyFirstSeen(labels);
    forall j | 0 <= j < |t| ensures exists i :: 0 <= i < |s| && f(s[i]) == t[j].0 {
      assert Keys(t)[j] == t[j].0;
      MapImage(s, f, t[j].0);
    }
  }

  /** An element of `Map(s, f)` is the image of some element of `s`. */
  lemma MapImage<A, B>(s: seq<A>, f: A -> B, y: B)
    requires y in Map(s, f)
    ensures exists i :: 0 <= i < |s| && f(s[i]) == y
  {
    var i :| 0 <= i < |Map(s, f)| && Map(s, f)[i] == y;
  }

  /** The bucket `k` of `Counter(f(x) for x in s)` counts the elements
      satisfying `p`, when `p` picks exactly the elements mapped to `k`. */
  lemma BucketCount<A, B(!new)>(s: seq<A>, f: A -> B, k: B, p: A -> bool)
    requires forall i :: 0 <= i < |s| ==> (f(s[i]) == k <==> p(s[i]))
    ensures Get(Tally(Map(s, f)), k) == CountIf(s, p)
  {
    CountMapped(s, f, k);
    CountIfSame(s, x => f(x) == k, p);
  }

  /** `Counter` lists keys in the order they are first seen. */
  lemma {:induction false} TallyFirstSeen<K(!new)>(s: seq<K>)
    ensures FirstSeenOrder(s, Keys(Tally(s)))
  {
    if |s| != 0 {
      var p, x := s[..|s| - 1], s[|s| - 1];
      assert s == p + [x];
      var t0 := Tally(p);
      TallyFirstSeen(p);
      TallySnoc(p, x);
      if x in Keys(t0) {
        FirstSeenOrderAppend(p, x, Keys(t0));
      } else {
        if x in p {
          assert Get(t0, x) > 0;
          GetPositive(t0, x);
        }
        FirstSeenOrderNew(p, x, Keys(t0));
      }
    }
  }

  /** Counting one more element is one `Bump`. */
  lemma TallySnoc<K(!new)>(p: seq<K>, x: K)
    ensures Tally(p + [x]) == Bump(Tally(p), x)
  {
    assert (p + [x])[..|p|] == p;
  }

  /** A reordering of a counter without repeated keys has no repeated keys. */
  lemma PermutedDistinct<K>(t: Counter<K>, r: Counter<K>)
    requires DistinctKeys(t)
    requires multiset(r) == multiset(t)
    ensures DistinctKeys(r)
  {
    forall i, j | 0 <= i < j < |r| ensures r[i].0 != r[j].0 {
      assert r[i] in multiset(t);
      var a :| 0 <= a < |t| && t[a] == r[i];
      assert r[j] in multiset(t);
      var b :| 0 <= b < |t| && t[b] == r[j];
      EntryOnce(t, a);
      OnceNotRepeated(r, i, j);
      assert a != b;
      assert t[a].0 != t[b].0 by {
        if a < b {
          assert t[a].0 != t[b].0;
        } else {
          assert t[b].0 != t[a].0;
        }
      }
    }
  }

  /** Each entry of a counter without repeated keys occurs exactly once. */
  lemma EntryOnce<K>(t: Counter<K>, a: nat)
    requires DistinctKeys(t)
    requires a < |t|
    ensures multiset(t)[t[a]] == 1
  {
    assert t == t[..a] + [t[a]] + t[a + 1..];
    assert t[a] !in t[..a];
    assert t[a] !in t[a + 1..];
  }

  /** An element occurring once is not repeated at a later position. */
  lemma OnceNotRepeated<T>(s: seq<T>, i: nat, j: nat)
    requires i < j < |s|
    requires multiset(s)[s[i]] == 1
    ensures s[i] != s[j]
  {
    assert s == s[..j] + s[j..];
    assert s[..j][i] == s[i];
    assert s[j..][0] == s[j];
  }

  /** `counter.most_common()`: entries by count, largest first, equal counts in
      insertion order. */
  function Ranked<K>(t: Counter<K>): (r: Counter<K>)
    ensures multiset(r) == multiset(t)
    ensures forall i, j :: 0 <= i < j < |r| ==> r[i].1 >= r[j].1
    ensures forall c :: KeyFilter(r, CountOf, c) == KeyFilter(t, CountOf, c)
  {
    AtLeastIsTotalOrder();
    var r := SortBy(t, CountOf, AtLeast);
    assert forall i, j :: 0 <= i < j < |r| ==> AtLeast(CountOf(r[i]), CountOf(r[j]));
    r
  }

  /** A key with a non-zero count has its entry somewhere in the ranking. */
  lemma RankedFind<K>(t: Counter<K>, k: K) returns (q: nat)
    requires DistinctKeys(t) && Get(t, k) > 0
    ensures q < |Ranked(t)| && Ranked(t)[q] == (k, Get(t, k))
  {
    var r := Ranked(t);
    GetPositive(t, k);
    var p :| 0 <= p < |Keys(t)| && Keys(t)[p] == k;
    GetAt(t, p);
    assert t[p] in multiset(r);
    q :| 0 <= q < |r| && r[q] == t[p];
  }

  /** A counter without repeated keys has no repeated entries. */
  lemma DistinctEntries<K>(t: Counter<K>)
    requires DistinctKeys(t)
    ensures Distinct(t)
  {
  }

  /** In the ranking of `Counter(s)`, of two entries with the same count the
      one whose key is seen first in `s` comes first. */
  lemma RankedTie<K(!new)>(s: seq<K>, i: nat, j: nat)
    requires i < j < |Ranked(Tally(s))| && Ranked(Tally(s))[i].1 == Ranked(Tally(s))[j].1
    ensures var r := Ranked(Tally(s));
      r[i].0 in s && r[j].0 in s && IndexOf(s, r[i].0) < IndexOf(s, r[j].0)
  {
    var t := Tally(s);
    var r := Ranked(t);
    var c := r[i].1;
    TallyFirstSeen(s);
    PermutedDistinct(t, r);
    DistinctEntries(t);
    DistinctEntries(r);
    KeyFilterKeepsOrder(r, CountOf, c, i, j);
    var f := KeyFilter(t, CountOf, c);
    var a, b := IndexOf(f, r[i]), IndexOf(f, r[j]);
    KeyFilterPositions(t, CountOf, c, a, b);
    var p, q := IndexOf(t, r[i]), IndexOf(t, r[j]);
    assert Keys(t)[p] == r[i].0 && Keys(t)[q] == r[j].0;
  }

  /** An entry ranked before another has a larger count, or the same count
      and a key seen earlier in `s`. */
  lemma RankedBefore<K(!new)>(s: seq<K>, i: nat, q: nat)
    requires i < q < |Ranked(Tally(s))|
    ensures var r := Ranked(Tally(s));
      r[i].1 > r[q].1 ||
      (r[i].1 == r[q].1 && r[i].0 in s && r[q].0 in s && IndexOf(s, r[i].0) < IndexOf(s, r[q].0))
  {
    var r := Ranked(Tally(s));
    if r[i].1 == r[q].1 {
      RankedTie(s, i, q);
    }
  }

  /** `counter.most_common(n)`: the first `n` entries of the ranking. */
  function MostCommon<K>(t: Counter<K>, n: nat): (r: Counter<K>)
    ensures |r| == if |t| < n then |t| else n
    ensures multiset(r) <= multiset(t)
    ensures forall i, j :: 0 <= i < j < |r| ==> r[i].1 >= r[j].1
    ensures forall e :: e in t && e !in r ==> |r| == n && forall i :: 0 <= i < |r| ==> r[i].1 >= e.1
    ensures forall c :: KeyFilter(r, CountOf, c) <= KeyFilter(t, CountOf, c)
  {
    var ranked := Ranked(t);
    RankedLength(t);
    TakeSub(ranked, n);
    TakeKeepsLargest(t, n);
    TakeKeepsTieOrder(t, n);
    Take(ranked, n)
  }

  /** Of the entries with one count, `most_common(n)` keeps the first ones in
      counter order, and keeps them in that order. */
  lemma TakeKeepsTieOrder<K>(t: Counter<K>, n: nat)
    ensures forall c :: KeyFilter(Take(Ranked(t), n), CountOf, c) <= KeyFilter(t, CountOf, c)
  {
    var ranked := Ranked(t);
    var r := Take(ranked, n);
    assert ranked == r + ranked[|r|..];
    forall c ensures KeyFilter(r, CountOf, c) <= KeyFilter(t, CountOf, c) {
      KeyFilterAppend(r, ranked[|r|..], CountOf, c);
    }
  }

  /** An entry `most_common(n)` leaves out only loses to all `n` it keeps. */
  lemma TakeKeepsLargest<K>(t: Counter<K>, n: nat)
    ensures var r := Take(Ranked(t), n);
      forall e :: e in t && e !in r ==> |r| == n && forall i :: 0 <= i < |r| ==> r[i].1 >= e.1
  {
    var ranked := Ranked(t);
    var r := Take(ranked, n);
    RankedLength(t);
    TakeSub(ranked, n);
    forall e | e in t && e !in r
      ensures |r| == n && forall i :: 0 <= i < |r| ==> r[i].1 >= e.1
    {
      assert e in multiset(ranked);
      var q :| 0 <= q < |ranked| && ranked[q] == e;
    }
  }

  /** Two keys counted once each: `most_common(1)` keeps the one counted first,
      and `most_common(2)` keeps both in counter order. */
  lemma MostCommonTieExample()
    ensures MostCommon([("a", 1), ("b", 1)], 1) == [("a", 1)]
    ensures MostCommon([("a", 1), ("b", 1)], 2) == [("a", 1), ("b", 1)]
  {
    var t: Counter<string> := [("a", 1), ("b", 1)];
    assert KeyFilter(t, CountOf, 1) == t;
    var r1 := MostCommon(t, 1);
    assert r1[0] in multiset(t);
    assert KeyFilter(r1, CountOf, 1) == r1;
    var r2 := MostCommon(t, 2);
    assert r2[0] in multiset(t) && r2[1] in multiset(t);
    assert KeyFilter(r2, CountOf, 1) == r2;
  }

  lemma RankedLength<K>(t: Counter<K>)
    ensures |Ranked(t)| == |t|
  {
    var ranked := Ranked(t);
    assert |ranked| == |multiset(ranked)| == |multiset(t)| == |t|;
  }

  /** The largest count, 0 for an empty counter. */
  function MaxCount<K>(t: Counter<K>): (m: nat)
    ensures forall i :: 0 <= i < |t| ==> t[i].1 <= m
    ensures |t| != 0 ==> exists i :: 0 <= i < |t| && t[i].1 == m
  {
    if |t| == 0 then 0
    else
      var rest := MaxCount(t[1..]);
      assert forall i :: 1 <= i < |t| ==> t[i] == t[1..][i - 1];
      if t[0].1 >= rest then t[0].1 else rest
  }

  /** The first entry of the ranking holds the largest count. */
  lemma RankedHeadIsMax<K>(t: Counter<K>)
    requires |t| != 0
    ensures |Ranked(t)| == |t| && Ranked(t)[0].1 == MaxCount(t)
  {
    var ranked := Ranked(t);
    assert |ranked| == |multiset(ranked)| == |multiset(t)| == |t|;
    var j :| 0 <= j < |t| && t[j].1 == MaxCount(t);
    assert t[j] in multiset(ranked);
    var k :| 0 <= k < |ranked| && ranked[k] == t[j];
    assert ranked[0] in multiset(t);
  }

  /** The first entry of `most_common` holds the largest count of the whole counter. */
  lemma MostCommonHeadIsMax<K>(t: Counter<K>, n: nat)
    requires n != 0 && |t| != 0
    ensures var r := MostCommon(t, n);
      |r| != 0 && r[0].1 == MaxCount(t) && MaxCount(r) == r[0].1
  {
    RankedHeadIsMax(t);
    var r := MostCommon(t, n);
    assert r[0] == Ranked(t)[0];
    var m :| 0 <= m < |r| && r[m].1 == MaxCount(r);
    assert m == 0 || r[0].1 >= r[m].1;
  }

  /** The first `n` entries of a counter without repeated keys have none. */
  lemma MostCommonDistinct<K>(t: Counter<K>, n: nat)
    requires DistinctKeys(t)
    ensures DistinctKeys(MostCommon(t, n))
  {
    var ranked := Ranked(t);
    PermutedDistinct(t, ranked);
    var r := MostCommon(t, n);
    assert forall i :: 0 <= i < |r| ==> r[i] == ranked[i];
  }

  /** A counter with a positive total has a positive largest count. */
  lemma {:induction false} MaxCountPositive<K>(t: Counter<K>)
    requires Total(t) > 0
    ensures MaxCount(t) > 0
  {
    if t[0].1 == 0 {
      MaxCountPositive(t[1..]);
    }
  }
}

=== FILE: decimal.dfy ===
/** Decimal rendering of naturals, Python's `str(n)` for `n >= 0`, and its
    inverse, used to show that rendered durations can be read back. */
module Decimal {
  import opened Seqs

  predicate IsDigit(c: char) {
    '0' <= c <= '9'
  }

  function DigitChar(d: nat): char
    requires d < 10
  {
    ('0' as int + d) as char
  }

  function DigitValue(c: char): nat
    requires IsDigit(c)
  {
    c as int - '0' as int
  }

  /** `str(n)`: the decimal digits of `n`, most significant first, no leading zero. */
  function Digits(n: nat): (r: string)
    ensures |r| >= 1
    ensures forall i :: 0 <= i < |r| ==> IsDigit(r[i])
    ensures |r| > 1 ==> r[0] != '0'
  {
    if n < 10 then [DigitChar(n)]
    else
      var high := Digits(n / 10);
      high + [DigitChar(n % 10)]
  }

  /** `int(s)` for a string of decimal digits; `None` for anything else. */
  function ParseNat(s: string): Option<nat>
  {
    if |s| == 0 || !IsDigit(s[|s| - 1]) then None
    else if |s| == 1 then Some(DigitValue(s[0]))
    else
      match ParseNat(s[..|s| - 1])
      case None => None
      case Some(v) => Some(v * 10 + DigitValue(s[|s| - 1]))
  }

  /** Reading back a rendered natural gives the natural. */
  lemma {:induction false} ParseDigits(n: nat)
    ensures ParseNat(Digits(n)) == Some(n)
  {
    if n >= 10 {
      var s := Digits(n);
      ParseDigits(n / 10);
      assert s[..|s| - 1] == Digits(n / 10);
    }
  }
}

=== FILE: duration.dfy ===
/** The "Duração" cell of an active problem, the same code in the HTML report
    (export-gerencial.py:851-866) and the spreadsheet (1184-1199): the time
    since the problem started, as days, hours and minutes, coarsest unit first,
    leading zero units left out, or "-" when the start time is missing. */
module Duration {
  import opened Seqs
  import opened Decimal

  const SECONDS_PER_DAY: nat := 86400
  const SECONDS_PER_HOUR: nat := 3600
  const SECONDS_PER_MINUTE: nat := 60

  /** Days, hours and minutes of `elapsed` seconds, with Python's floor `//` and `%`.
      Their divisors are positive, where Dafny's Euclidean `/` and `%` agree with them. */
  function Decompose(elapsed: int): (dhm: (int, nat, nat))
    ensures dhm.1 < 24 && dhm.2 < 60
    ensures dhm.0 * 86400 + dhm.1 * 3600 + dhm.2 * 60 <= elapsed < dhm.0 * 86400 + dhm.1 * 3600 + dhm.2 * 60 + 60
    ensures dhm.0 >= 0 <==> elapsed >= 0
  {
    var days := elapsed / SECONDS_PER_DAY;
    var hours := (elapsed % SECONDS_PER_DAY) / SECONDS_PER_HOUR;
    var rest := (elapsed % SECONDS_PER_DAY) % SECONDS_PER_HOUR;
    assert elapsed == (24 * days + hours) * 3600 + rest;
    HourRemainder(elapsed, 24 * days + hours, rest);
    var minutes := (elapsed % SECONDS_PER_HOUR) / SECONDS_PER_MINUTE;
    assert rest == minutes * 60 + rest % 60;
    (days, hours, minutes)
  }

  /** The remainder by an hour is determined by any decomposition into whole hours. */
  lemma HourRemainder(e: int, q: int, r: int)
    requires e == q * 3600 + r && 0 <= r < 3600
    ensures e % 3600 == r
  {
  }

  /** Whole minutes of an elapsed time given as days, hours and minutes plus seconds. */
  lemma WholeMinutes(e: int, d: int, h: int, m: int)
    requires d * 86400 + h * 3600 + m * 60 <= e < d * 86400 + h * 3600 + m * 60 + 60
    ensures e / 60 == d * 1440 + h * 60 + m
  {
  }

  /** The duration cell for a problem that started at `clock` (0 when the record has
      none), read at time `now`; both are Unix timestamps in seconds. */
  function DurationLabel(now: int, clock: nat): (r: string)
    ensures r == "-" <==> clock == 0
  {
    if clock == 0 then "-"
    else
      Join(DurationTokens(now - clock), " ")
  }

  /** `f"{n}{unit}"`, one unit of a duration cell. */
  function Token(n: nat, unit: char): string
  {
    Digits(n) + [unit]
  }

  /** The units shown: days only when there is at least a day, hours only when
      there are days or at least an hour, minutes always. */
  function DurationTokens(elapsed: int): seq<string>
  {
    var dhm := Decompose(elapsed);
    if dhm.0 > 0 then [Token(dhm.0, 'd'), Token(dhm.1, 'h'), Token(dhm.2, 'm')]
    else if dhm.1 > 0 then [Token(dhm.1, 'h'), Token(dhm.2, 'm')]
    else [Token(dhm.2, 'm')]
  }

  /** The minutes one `<n><unit>` token of a duration stands for. */
  function TokenMinutes(token: string): Option<nat>
  {
    if |token| < 2 then None
    else
      match ParseNat(token[..|token| - 1])
      case None => None
      case Some(v) =>
        var unit := token[|token| - 1];
        if unit == 'd' then Some(v * 1440)
        else if unit == 'h' then Some(v * 60)
        else if unit == 'm' then Some(v)
        else None
  }

  function SumTokens(tokens: seq<string>): Option<nat>
  {
    if |tokens| == 0 then Some(0)
    else
      match (TokenMinutes(tokens[0]), SumTokens(tokens[1..]))
      case (Some(a), Some(b)) => Some(a + b)
      case _ => None
  }

  /** Reads a duration cell back as a number of minutes; `None` for "-". */
  function ParseDuration(cell: string): Option<nat>
  {
    SumTokens(Split(cell, ' '))
  }

  lemma TokenOf(n: nat, unit: char)
    requires unit in {'d', 'h', 'm'}
    ensures ' ' !in Token(n, unit)
    ensures TokenMinutes(Token(n, unit))
            == Some(if unit == 'd' then n * 1440 else if unit == 'h' then n * 60 else n)
  {
    var t := Token(n, unit);
    assert t[..|t| - 1] == Digits(n);
    ParseDigits(n);
    assert forall i :: 0 <= i < |t| ==> t[i] == unit || IsDigit(t[i]);
  }

  /** The tokens of a duration add up to its whole minutes, case by case. */
  lemma SumDayTokens(d: nat, h: nat, m: nat)
    ensures SumTokens([Token(d, 'd'), Token(h, 'h'), Token(m, 'm')]) == Some(d * 1440 + h * 60 + m)
  {
    TokenOf(d, 'd');
    SumHourTokens(h, m);
    assert [Token(d, 'd'), Token(h, 'h'), Token(m, 'm')][1..] == [Token(h, 'h'), Token(m, 'm')];
  }

  lemma SumHourTokens(h: nat, m: nat)
    ensures SumTokens([Token(h, 'h'), Token(m, 'm')]) == Some(h * 60 + m)
  {
    TokenOf(h, 'h');
    SumMinuteTokens(m);
    assert [Token(h, 'h'), Token(m, 'm')][1..] == [Token(m, 'm')];
  }

  lemma SumMinuteTokens(m: nat)
    ensures SumTokens([Token(m, 'm')]) == Some(m)
  {
    TokenOf(m, 'm');
    assert [Token(m, 'm')][1..] == [];
  }

  /** No token of a duration holds a space, so splitting the cell gives them back. */
  lemma DurationSplit(elapsed: int)
    ensures Split(Join(DurationTokens(elapsed), " "), ' ') == DurationTokens(elapsed)
  {
    var dhm := Decompose(elapsed);
    TokenOf(dhm.1, 'h');
    TokenOf(dhm.2, 'm');
    if dhm.0 > 0 {
      TokenOf(dhm.0, 'd');
    }
    SplitJoin(DurationTokens(elapsed), ' ');
  }

  /** The duration cell loses only the seconds: read back, it gives the whole
      minutes elapsed since the problem started. */
  lemma DurationRoundTrip(now: int, clock: nat)
    requires clock != 0 && now >= clock
    ensures ParseDuration(DurationLabel(now, clock)) == Some((now - clock) / 60)
  {
    var e := now - clock;
    var tokens := DurationTokens(e);
    assert DurationLabel(now, clock) == Join(tokens, " ");
    DurationSplit(e);
    assert ParseDuration(DurationLabel(now, clock)) == SumTokens(tokens);
    TokensSum(e);
  }

  /** The tokens of a non-negative elapsed time add up to its whole minutes. */
  lemma TokensSum(e: int)
    requires e >= 0
    ensures SumTokens(DurationTokens(e)) == Some(e / 60)
  {
    var dhm := Decompose(e);
    var d, h, m := dhm.0, dhm.1, dhm.2;
    WholeMinutes(e, d, h, m);
    if d > 0 {
      SumDayTokens(d, h, m);
    } else if h > 0 {
      SumHourTokens(h, m);
    } else {
      SumMinuteTokens(m);
    }
  }

  /** Units are shown coarsest first and a zero leading unit is left out: for a
      problem that started `s >= 0` seconds ago, the cell has a day part exactly
      when `s` is at least a day and an hour part exactly when `s` is at least an hour. */
  lemma DurationUnitsShown(now: int, clock: nat)
    requires clock != 0 && now >= clock
    ensures 'd' in DurationLabel(now, clock) <==> now - clock >= SECONDS_PER_DAY
    ensures 'h' in DurationLabel(now, clock) <==> now - clock >= SECONDS_PER_HOUR
    ensures 'm' in DurationLabel(now, clock)
  {
    var tokens := DurationTokens(now - clock);
    var dhm := Decompose(now - clock);
    forall n: nat, u: char, x: char | x in Token(n, u) && x != u ensures IsDigit(x) {
      var t := Token(n, u);
      var i :| 0 <= i < |t| && t[i] == x;
      if i < |Digits(n)| {
        assert t[i] == Digits(n)[i];
      }
    }
    InJoin(tokens, " ", 'd');
    InJoin(tokens, " ", 'h');
    InJoin(tokens, " ", 'm');
    assert Token(dhm.2, 'm')[|Token(dhm.2, 'm')| - 1] == 'm';
    assert tokens[|tokens| - 1] == Token(dhm.2, 'm');
    if dhm.0 > 0 || dhm.1 > 0 {
      assert Token(dhm.1, 'h')[|Token(dhm.1, 'h')| - 1] == 'h';
      assert tokens[|tokens| - 2] == Token(dhm.1, 'h');
    }
    if dhm.0 > 0 {
      assert Token(dhm.0, 'd')[|Token(dhm.0, 'd')| - 1] == 'd';
      assert tokens[0] == Token(dhm.0, 'd');
    }
  }

  /** The three worked examples (0 s, one hour, one day and one hour) and the
      placeholder for a missing start time. */
  lemma DurationExamples()
    ensures DurationLabel(1700000000, 1700000000) == "0m"
    ensures DurationLabel(1700003600, 1700000000) == "1h 0m"
    ensures DurationLabel(1700090000, 1700000000) == "1d 1h 0m"
    ensures DurationLabel(1700000000, 0) == "-"
  {
    assert Digits(0) == "0";
    assert Digits(1) == "1";
  }

  /** A start time ahead of `now` (a clock skew) is not rejected: the floor
      division wraps it into a time of day, so one minute ahead shows "23h 59m". */
  lemma ClockAheadWraps()
    ensures DurationLabel(1699999940, 1700000000) == "23h 59m"
  {
    assert Decompose(-60) == (-1, 23, 59);
    assert Digits(23) == "23";
    assert Digits(59) == "59";
  }
}

=== FILE: orders.dfy ===
/** The orders the report sorts by: Python's string comparison (code-point
    lexicographic), ASCII lower-casing for case-insensitive keys, and the
    trigger key "priority descending, then description ascending". */
module Orders {

  /** `le` is a total order: reflexive, antisymmetric, transitive and total. */
  ghost predicate TotalOrder<K(!new)>(le: (K, K) -> bool) {
    && (forall a :: le(a, a))
    && (forall a, b :: le(a, b) && le(b, a) ==> a == b)
    && (forall a, b, c :: le(a, b) && le(b, c) ==> le(a, c))
    && (forall a, b :: le(a, b) || le(b, a))
  }

  /** Python's `a <= b` on strings: lexicographic by code point, a proper prefix first. */
  predicate LexLe(a: string, b: string)
  {
    |a| == 0 || (|b| != 0 && (a[0] < b[0] || (a[0] == b[0] && LexLe(a[1..], b[1..]))))
  }

  lemma {:induction false} LexLeReflexive(a: string)
    ensures LexLe(a, a)
  {
    if |a| != 0 {
      LexLeReflexive(a[1..]);
    }
  }

  lemma {:induction false} LexLeAntisymmetric(a: string, b: string)
    requires LexLe(a, b) && LexLe(b, a)
    ensures a == b
  {
    if |a| != 0 {
      LexLeAntisymmetric(a[1..], b[1..]);
      assert a == [a[0]] + a[1..];
      assert b == [b[0]] + b[1..];
    }
  }

  lemma {:induction false} LexLeTransitive(a: string, b: string, c: string)
    requires LexLe(a, b) && LexLe(b, c)
    ensures LexLe(a, c)
  {
    if |a| != 0 && a[0] == b[0] && b[0] == c[0] {
      LexLeTransitive(a[1..], b[1..], c[1..]);
    }
  }

  lemma {:induction false} LexLeTotal(a: string, b: string)
    ensures LexLe(a, b) || LexLe(b, a)
  {
    if |a| != 0 && |b| != 0 && a[0] == b[0] {
      LexLeTotal(a[1..], b[1..]);
    }
  }

  /** Python's string comparison is a total order, so sorting by it is well defined. */
  lemma LexLeIsTotalOrder()
    ensures TotalOrder(LexLe)
  {
    forall a ensures LexLe(a, a) {
      LexLeReflexive(a);
    }
    forall a, b | LexLe(a, b) && LexLe(b, a) ensures a == b {
      LexLeAntisymmetric(a, b);
    }
    forall a, b, c | LexLe(a, b) && LexLe(b, c) ensures LexLe(a, c) {
      LexLeTransitive(a, b, c);
    }
    forall a, b ensures LexLe(a, b) || LexLe(b, a) {
      LexLeTotal(a, b);
    }
  }

  predicate IsUpper(c: char) {
    'A' <= c <= 'Z'
  }

  function LowerChar(c: char): char {
    if IsUpper(c) then (c as int + 32) as char else c
  }

  /** ASCII lower-casing, standing for Python's `str.lower()`. */
  function Lower(s: string): (r: string)
    ensures |r| == |s|
    ensures forall i :: 0 <= i < |r| ==> !IsUpper(r[i])
    ensures forall i :: 0 <= i < |s| && !IsUpper(s[i]) ==> r[i] == s[i]
    ensures forall i :: 0 <= i < |s| && IsUpper(s[i]) ==> r[i] as int == s[i] as int + 32
  {
    seq(|s|, i requires 0 <= i < |s| => LowerChar(s[i]))
  }

  /** Sort key order for triggers: the key is (priority, lower-cased description) and
      the order is priority descending, then description ascending. This is the
      order of the source's tuple key `(-priority, description.lower())`. */
  predicate PriorityThenText(x: (nat, string), y: (nat, string))
  {
    x.0 > y.0 || (x.0 == y.0 && LexLe(x.1, y.1))
  }

  lemma PriorityThenTextIsTotalOrder()
    ensures TotalOrder(PriorityThenText)
  {
    LexLeIsTotalOrder();
  }

  /** Count order for frequency rankings: larger counts first. */
  predicate AtLeast(a: nat, b: nat) {
    a >= b
  }

  lemma AtLeastIsTotalOrder()
    ensures TotalOrder(AtLeast)
  {
  }
}

=== FILE: ranking.dfy ===
/** The "Alertas Mais Frequentes" section of the HTML report and the
    "Top 20 Alertas" sheet (export-gerencial.py:895-897, 919-920, 1228-1243):
    the names of past problem events counted, the twenty most frequent listed
    with their positions, present only when there are events. */
module Ranking {
  import opened Seqs
  import opened Orders
  import opened StableSort
  import opened Counter
  import opened Records

  /** How many alerts the section lists at most. */
  const TOP_N: nat := 20

  function EventName(e: Event): string
  {
    e.name
  }

  /** The names of the events, in the order given. */
  function EventNames(events: seq<Event>): (names: seq<string>)
    ensures |names| == |events|
  {
    Map(events, EventName)
  }

  /** `Counter(e.get("name", "") for e in events)`. */
  function AlertCounter(events: seq<Event>): (t: Counter<string>)
    ensures IsTallyOf(EventNames(events), t)
  {
    Tally(EventNames(events))
  }

  /** `alert_counter.most_common(20)`: at most twenty names, none repeated,
      each with the number of events that carry it, most frequent first. */
  function TopAlerts(events: seq<Event>): (top: Counter<string>)
    ensures |top| <= TOP_N
    ensures |top| == if |AlertCounter(events)| < TOP_N then |AlertCounter(events)| else TOP_N
    ensures DistinctKeys(top)
    ensures forall i, j :: 0 <= i < j < |top| ==> top[i].1 >= top[j].1
  {
    var t := AlertCounter(events);
    MostCommonDistinct(t, TOP_N);
    MostCommon(t, TOP_N)
  }

  /** The counter's count of a name is the number of events with that name. */
  lemma NameCount(events: seq<Event>, name: string)
    ensures Get(AlertCounter(events), name) == CountIf(events, (e: Event) => e.name == name)
  {
    BucketCount(events, EventName, name, (e: Event) => e.name == name);
  }

  /** Each listed count is the exact number of events with that name, at least one. */
  lemma TopAlertsCounts(events: seq<Event>)
    ensures var top := TopAlerts(events);
      forall i :: 0 <= i < |top| ==>
        top[i].1 == CountIf(events, (e: Event) => e.name == top[i].0) && top[i].1 >= 1
  {
    var top := TopAlerts(events);
    forall i | 0 <= i < |top|
      ensures top[i].1 == CountIf(events, (e: Event) => e.name == top[i].0) && top[i].1 >= 1
    {
      TopAlertCount(events, i);
    }
  }

  lemma TopAlertCount(events: seq<Event>, i: nat)
    requires i < |TopAlerts(events)|
    ensures var e := TopAlerts(events)[i];
      e.1 == CountIf(events, (x: Event) => x.name == e.0) && e.1 >= 1
  {
    var t := AlertCounter(events);
    var r := Ranked(t);
    var top := TopAlerts(events);
    assert top[i] == r[i];
    assert r[i] in multiset(t);
    var p :| 0 <= p < |t| && t[p] == top[i];
    GetAt(t, p);
    NameCount(events, top[i].0);
    TallyFirstSeen(EventNames(events));
    assert Keys(t)[p] == t[p].0;
    assert top[i].0 in EventNames(events);
  }

  /** Nothing more frequent is left out: a name that is not listed has occurred,
      if at all, no more often than every listed one, and then all twenty places
      are taken; a listed name with the same count was seen first. */
  lemma TopAlertsComplete(events: seq<Event>, name: string)
    requires name in EventNames(events)
    ensures var top := TopAlerts(events);
      var names := EventNames(events);
      var c := CountIf(events, (e: Event) => e.name == name);
      name in Keys(top) ||
      (|top| == TOP_N && forall i :: 0 <= i < |top| ==>
        top[i].1 > c ||
        (top[i].1 == c && top[i].0 in names && IndexOf(names, top[i].0) < IndexOf(names, name)))
  {
    var names := EventNames(events);
    var t := AlertCounter(events);
    var r := Ranked(t);
    var top := TopAlerts(events);
    var q := RankedPosition(events, name);
    if q < TOP_N {
      TopListed(events, name, q);
    } else {
      NameCount(events, name);
      assert r[q].1 == CountIf(events, (e: Event) => e.name == name);
      RankedLength(t);
      assert |top| == TOP_N;
      TopLosers(events, name, q);
    }
  }

  /** A name ranked within the first twenty places is listed. */
  lemma TopListed(events: seq<Event>, name: string, q: nat)
    requires var r := Ranked(AlertCounter(events));
      q < TOP_N && q < |r| && r[q].0 == name
    ensures name in Keys(TopAlerts(events))
  {
    var r := Ranked(AlertCounter(events));
    var top := TopAlerts(events);
    RankedLength(AlertCounter(events));
    assert top[q] == r[q];
    assert Keys(top)[q] == name;
  }

  /** A name ranked past the twentieth place loses to each listed name on
      count, or ties and was seen later. */
  lemma TopLosers(events: seq<Event>, name: string, q: nat)
    requires name in EventNames(events)
    requires var r := Ranked(AlertCounter(events));
      TOP_N <= q < |r| && r[q].0 == name
    ensures var top := TopAlerts(events);
      var names := EventNames(events);
      var c := Ranked(AlertCounter(events))[q].1;
      forall i :: 0 <= i < |top| ==>
        top[i].1 > c || (top[i].1 == c && top[i].0 in names && IndexOf(names, top[i].0) < IndexOf(names, name))
  {
    var names := EventNames(events);
    var r := Ranked(Tally(names));
    var top := TopAlerts(events);
    forall i | 0 <= i < |top|
      ensures top[i].1 > r[q].1 ||
        (top[i].1 == r[q].1 && top[i].0 in names && IndexOf(names, top[i].0) < IndexOf(names, name))
    {
      assert top[i] == r[i];
      RankedBefore(names, i, q);
    }
  }

  /** Where a name that occurs sits in the full ranking. */
  lemma RankedPosition(events: seq<Event>, name: string) returns (q: nat)
    requires name in EventNames(events)
    ensures var r := Ranked(AlertCounter(events));
      q < |r| && r[q].0 == name && r[q].1 == Get(AlertCounter(events), name)
  {
    var t := AlertCounter(events);
    assert Get(t, name) > 0;
    q := RankedFind(t, name);
  }

  /** Ties keep first-seen order: of two listed names with the same count, the
      one whose first event comes earlier is listed first. */
  lemma TopAlertsTies(events: seq<Event>)
    ensures var top := TopAlerts(events);
      forall i, j :: 0 <= i < j < |top| && top[i].1 == top[j].1 ==>
        top[i].0 in EventNames(events) && top[j].0 in EventNames(events) &&
        IndexOf(EventNames(events), top[i].0) < IndexOf(EventNames(events), top[j].0)
  {
    var names := EventNames(events);
    var r := Ranked(Tally(names));
    var top := TopAlerts(events);
    forall i, j | 0 <= i < j < |top| && top[i].1 == top[j].1
      ensures top[i].0 in names && top[j].0 in names && IndexOf(names, top[i].0) < IndexOf(names, top[j].0)
    {
      assert top[i] == r[i] && top[j] == r[j];
      RankedTie(names, i, j);
    }
  }

  /** One line of the section: its position (from 1), the name and its count. */
  datatype TopRow = TopRow(position: nat, name: string, count: nat)

  /** `enumerate(top_alerts, 1)`: row i shows position i + 1 with the name
      and count of the i-th entry. */
  function TopRows(top: Counter<string>): (rows: seq<TopRow>)
    ensures |rows| == |top|
    ensures forall i :: 0 <= i < |rows| ==>
      rows[i].position == i + 1 && rows[i].name == top[i].0 && rows[i].count == top[i].1
  {
    seq(|top|, i requires 0 <= i < |top| => TopRow(i + 1, top[i].0, top[i].1))
  }

  /** The entries a section's rows show, in row order. */
  function RowEntries(rows: seq<TopRow>): (t: Counter<string>)
    ensures |t| == |rows|
  {
    seq(|rows|, i requires 0 <= i < |rows| => (rows[i].name, rows[i].count))
  }

  /** The rows lose nothing: reading the names and counts back gives the ranking. */
  lemma TopRowsRoundTrip(top: Counter<string>)
    ensures RowEntries(TopRows(top)) == top
  {
    var back := RowEntries(TopRows(top));
    forall i | 0 <= i < |top| ensures back[i] == top[i] {
      assert back[i] == (TopRows(top)[i].name, TopRows(top)[i].count);
    }
  }

  /** The section, `None` when there are no events (`if events:`), else the
      rows of the top twenty. */
  function AlertsSection(events: seq<Event>): (section: Option<seq<TopRow>>)
    ensures section.Some? <==> |events| != 0
    ensures section.Some? ==> 1 <= |section.value| <= TOP_N
    ensures section.Some? ==> RowEntries(section.value) == TopAlerts(events)
  {
    if |events| == 0 then None
    else
      var t := AlertCounter(events);
      assert Total(t) == |events|;
      TopRowsRoundTrip(TopAlerts(events));
      Some(TopRows(TopAlerts(events)))
  }

  /** What the section shows: positions 1, 2, ..., each name once, each with
      the number of events of that name, most frequent first. */
  lemma AlertsSectionRows(events: seq<Event>)
    requires |events| != 0
    ensures var rows := AlertsSection(events).value;
      && (forall i :: 0 <= i < |rows| ==>
        && rows[i].position == i + 1
        && rows[i].count == CountIf(events, (e: Event) => e.name == rows[i].name)
        && rows[i].count >= 1
        && (i > 0 ==> rows[i - 1].count >= rows[i].count))
      && (forall i, j :: 0 <= i < j < |rows| ==> rows[i].name != rows[j].name)
  {
    AlertsSectionCounts(events);
    AlertsSectionOrder(events);
  }

  /** Each row of the section counts the events that carry its name. */
  lemma AlertsSectionCounts(events: seq<Event>)
    requires |events| != 0
    ensures var rows := AlertsSection(events).value;
      forall i :: 0 <= i < |rows| ==>
        rows[i].count == CountIf(events, (e: Event) => e.name == rows[i].name) && rows[i].count >= 1
  {
    var rows := TopRows(TopAlerts(events));
    AlertsSectionIs(events);
    forall i | 0 <= i < |rows|
      ensures rows[i].count == CountIf(events, (e: Event) => e.name == rows[i].name) && rows[i].count >= 1
    {
      AlertRowCount(events, i);
    }
  }

  /** The section's rows are numbered from 1, name each alert once, and keep
      the counts non-increasing. */
  lemma AlertsSectionOrder(events: seq<Event>)
    requires |events| != 0
    ensures var rows := AlertsSection(events).value;
      && (forall i :: 0 <= i < |rows| ==>
        rows[i].position == i + 1 && (i > 0 ==> rows[i - 1].count >= rows[i].count))
      && (forall i, j :: 0 <= i < j < |rows| ==> rows[i].name != rows[j].name)
  {
    AlertsSectionIs(events);
    TopRowsOrdered(TopAlerts(events));
  }

  /** With events, the section is the rows of `TopAlerts`. */
  lemma AlertsSectionIs(events: seq<Event>)
    requires |events| != 0
    ensures AlertsSection(events) == Some(TopRows(TopAlerts(events)))
  {
  }

  /** Row i of the section counts the events that carry its name. */
  lemma AlertRowCount(events: seq<Event>, i: nat)
    requires i < |TopAlerts(events)|
    ensures var row := TopRows(TopAlerts(events))[i];
      row.count == CountIf(events, (e: Event) => e.name == row.name) && row.count >= 1
  {
    var top := TopAlerts(events);
    TopAlertCount(events, i);
    assert TopRows(top)[i].name == top[i].0 && TopRows(top)[i].count == top[i].1;
  }

  /** Rows drawn from a ranking without repeated keys are numbered from 1,
      name each key once and keep the counts non-increasing. */
  lemma TopRowsOrdered(top: Counter<string>)
    requires DistinctKeys(top)
    requires forall i, j :: 0 <= i < j < |top| ==> top[i].1 >= top[j].1
    ensures var rows := TopRows(top);
      && (forall i :: 0 <= i < |rows| ==>
        rows[i].position == i + 1 && (i > 0 ==> rows[i - 1].count >= rows[i].count))
      && (forall i, j :: 0 <= i < j < |rows| ==> rows[i].name != rows[j].name)
  {
    var rows := TopRows(top);
    forall i | 0 < i < |rows| ensures rows[i - 1].count >= rows[i].count {
      assert rows[i - 1].count == top[i - 1].1 && rows[i].count == top[i].1;
    }
    forall i, j | 0 <= i < j < |rows| ensures rows[i].name != rows[j].name {
      assert rows[i].name == top[i].0 && rows[j].name == top[j].0;
    }
  }

  /** Events named A, A, B, C, C, C rank as C:3, A:2, B:1. */
  lemma AlertsExample(a: Event, b: Event, c: Event)
    requires a.name == "A" && b.name == "B" && c.name == "C"
    ensures TopAlerts([a, a, b, c, c, c]) == [("C", 3), ("A", 2), ("B", 1)]
  {
    ExampleCounter(a, b, c);
    RankedExample();
    TopOfRanked([a, a, b, c, c, c], [("A", 2), ("B", 1), ("C", 3)], [("C", 3), ("A", 2), ("B", 1)]);
  }

  /** With fewer than twenty names, the top list is the whole ranking. */
  lemma TopOfRanked(events: seq<Event>, t: Counter<string>, r: Counter<string>)
    requires AlertCounter(events) == t && Ranked(t) == r && |r| <= TOP_N
    ensures TopAlerts(events) == r
  {
  }

  lemma ExampleCounter(a: Event, b: Event, c: Event)
    requires a.name == "A" && b.name == "B" && c.name == "C"
    ensures AlertCounter([a, a, b, c, c, c]) == [("A", 2), ("B", 1), ("C", 3)]
  {
    var events := [a, a, b, c, c, c];
    assert EventNames(events) == ["A", "A", "B", "C", "C", "C"];
    TallyExample("A", "B", "C");
  }

  lemma RankedExample()
    ensures Ranked([("A", 2), ("B", 1), ("C", 3)]) == [("C", 3), ("A", 2), ("B", 1)]
  {
    var t: Counter<string> := [("A", 2), ("B", 1), ("C", 3)];
    var r: Counter<string> := [("C", 3), ("A", 2), ("B", 1)];
    AtLeastIsTotalOrder();
    forall k ensures KeyFilter(r, CountOf, k) == KeyFilter(t, CountOf, k) {
      assert t == [t[0]] + ([t[1]] + [t[2]]);
      KeyFilterAppend([t[0]], [t[1]] + [t[2]], CountOf, k);
      KeyFilterAppend([t[1]], [t[2]], CountOf, k);
      assert r == [r[0]] + ([r[1]] + [r[2]]);
      KeyFilterAppend([r[0]], [r[1]] + [r[2]], CountOf, k);
      KeyFilterAppend([r[1]], [r[2]], CountOf, k);
      SingletonFilter(t[0], k);
      SingletonFilter(t[1], k);
      SingletonFilter(t[2], k);
    }
    assert SortedBy(r, CountOf, AtLeast);
    SortedStableUnique(r, Ranked(t), CountOf, AtLeast);
  }

  lemma SingletonFilter(e: (string, nat), k: nat)
    ensures KeyFilter([e], CountOf, k) == if e.1 == k then [e] else []
  {
    var s: seq<(string, nat)> := [e];
    assert s[1..] == [];
  }

  lemma TallyExample(x: string, y: string, z: string)
    requires x != y && y != z && x != z
    ensures Tally([x, x, y, z, z, z]) == [(x, 2), (y, 1), (z, 3)]
  {
    assert [x, x, y, z] == [x, x, y] + [z];
    assert [x, x, y, z, z] == [x, x, y, z] + [z];
    assert [x, x, y, z, z, z] == [x, x, y, z, z] + [z];
    TallyPrefixExample(x, y);
    TallyThen([x, x, y], z, [(x, 2), (y, 1)], [(x, 2), (y, 1), (z, 1)]) by {
      BumpNew(x, y, z);
    }
    TallyThen([x, x, y, z], z, [(x, 2), (y, 1), (z, 1)], [(x, 2), (y, 1), (z, 2)]) by {
      BumpThird(x, y, z, 1);
    }
    TallyThen([x, x, y, z, z], z, [(x, 2), (y, 1), (z, 2)], [(x, 2), (y, 1), (z, 3)]) by {
      BumpThird(x, y, z, 2);
    }
  }

  lemma TallyPrefixExample(x: string, y: string)
    requires x != y
    ensures Tally([x, x, y]) == [(x, 2), (y, 1)]
  {
    assert [x] == [] + [x];
    assert [x, x] == [x] + [x];
    assert [x, x, y] == [x, x] + [y];
    TallyThen([], x, [], [(x, 1)]);
    TallyThen([x], x, [(x, 1)], [(x, 2)]) by {
      BumpHead([(x, 1)], x);
    }
    TallyThen([x, x], y, [(x, 2)], [(x, 2), (y, 1)]) by {
      BumpPast([(x, 2)], y);
    }
  }

  /** One counting step of the example, from a known tally and a known bump. */
  lemma TallyThen(p: seq<string>, x: string, before: Counter<string>, after: Counter<string>)
    requires Tally(p) == before && Bump(before, x) == after
    ensures Tally(p + [x]) == after
  {
    TallySnoc(p, x);
  }

  lemma BumpNew(x: string, y: string, z: string)
    requires x != z && y != z
    ensures Bump([(x, 2), (y, 1)], z) == [(x, 2), (y, 1), (z, 1)]
  {
    BumpPast([(x, 2), (y, 1)], z);
    BumpPast([(y, 1)], z);
  }

  lemma BumpThird(x: string, y: string, z: string, n: nat)
    requires x != z && y != z
    ensures Bump([(x, 2), (y, 1), (z, n)], z) == [(x, 2), (y, 1), (z, n + 1)]
  {
    BumpPast([(x, 2), (y, 1), (z, n)], z);
    BumpPast([(y, 1), (z, n)], z);
    BumpHead([(z, n)], z);
  }

  /** `Bump` on a counter whose first key is the one counted. */
  lemma BumpHead(t: Counter<string>, k: string)
    requires |t| != 0 && t[0].0 == k
    ensures Bump(t, k) == [(k, t[0].1 + 1)] + t[1..]
  {
  }

  /** `Bump` on a counter whose first key is another one. */
  lemma BumpPast(t: Counter<string>, k: string)
    requires |t| != 0 && t[0].0 != k
    ensures Bump(t, k) == [t[0]] + Bump(t[1..], k)
  {
  }
}

=== FILE: records.dfy ===
/** The records fetched for one host, as the report reads them. A field the
    report reads with `.get(field, default)` and the same default everywhere is
    stored with that default already applied; a field read with different
    defaults in different places (or compared without a default) is an `Option`. */
module Records {
  import opened Seqs
  import opened Tables

  /** A `{"tag": ..., "value": ...}` pair attached to an item or trigger. */
  datatype Tag = Tag(tag: string, value: Option<string>)

  /** One preprocessing step of an item. */
  datatype PreprocessingStep = PreprocessingStep(stepType: string, params: string)

  /** A trigger this trigger depends on. */
  datatype Dependency = Dependency(triggerId: string, description: string)

  /** A monitored item. `itemType` and `valueType` are raw codes ("" when absent,
      which no table knows); `delay` and `history` are "-" when absent; `status`
      is "0" (active), "1" (disabled) or other. */
  datatype Item = Item(
    name: string,
    key: string,
    itemType: string,
    valueType: string,
    delay: string,
    history: string,
    status: Option<string>,
    tags: seq<Tag>,
    preprocessing: seq<PreprocessingStep>)

  /** A trigger; an absent priority reads as "0" everywhere in the report. */
  datatype Trigger = Trigger(
    description: string,
    expression: string,
    priority: Option<Priority>,
    status: Option<string>,
    dependencies: seq<Dependency>,
    comments: string,
    tags: seq<Tag>)

  /** An active problem; `clock` is its start as a Unix timestamp, 0 when absent,
      and `severity` its raw code, "0" when absent. */
  datatype Problem = Problem(
    name: string,
    clock: nat,
    severity: string,
    acknowledged: Option<string>)

  /** A past problem event; only its name takes part in the report. */
  datatype Event = Event(name: string)

  /** `int(trigger.get("priority", "0"))`. */
  function PriorityOf(t: Trigger): Priority
  {
    t.priority.GetOr(0)
  }

  /** `trigger.get("priority", "0")`, the raw code. */
  function PriorityCodeOf(t: Trigger): string
  {
    PriorityCode(PriorityOf(t))
  }
}

=== FILE: report_order.dfy ===
/** The order in which both reports list items and triggers: items by name
    ignoring case (export-gerencial.py:183, 1082), triggers by priority, highest
    first, then by description ignoring case (185, 1129). Both are Python's
    stable `sorted`, so rows with equal keys keep the order the monitoring
    system returned them in. */
module ReportOrder {
  import opened Seqs
  import opened Orders
  import opened StableSort
  import opened Tables
  import opened Records

  /** `x.get("name", "").lower()`. */
  function ItemSortKey(i: Item): string
  {
    Lower(i.name)
  }

  /** `(-int(x.get("priority", "0")), x.get("description", "").lower())`,
      with the negation folded into the order: a larger priority sorts first. */
  function TriggerSortKey(t: Trigger): (nat, string)
  {
    (PriorityOf(t) as nat, Lower(t.description))
  }

  /** `sorted(itens, key=lambda x: x.get("name", "").lower())`. */
  function SortItems(items: seq<Item>): (r: seq<Item>)
    ensures multiset(r) == multiset(items)
    ensures forall i, j :: 0 <= i < j < |r| ==> LexLe(Lower(r[i].name), Lower(r[j].name))
    ensures forall k :: KeyFilter(r, ItemSortKey, k) == KeyFilter(items, ItemSortKey, k)
  {
    LexLeIsTotalOrder();
    var r := SortBy(items, ItemSortKey, LexLe);
    assert forall i, j :: 0 <= i < j < |r| ==> LexLe(ItemSortKey(r[i]), ItemSortKey(r[j]));
    r
  }

  /** `sorted(triggers, key=lambda x: (-int(x.get("priority", "0")),
      x.get("description", "").lower()))`. */
  function SortTriggers(triggers: seq<Trigger>): (r: seq<Trigger>)
    ensures multiset(r) == multiset(triggers)
    ensures forall i, j :: 0 <= i < j < |r| ==> PriorityOf(r[i]) >= PriorityOf(r[j])
    ensures forall i, j :: 0 <= i < j < |r| && PriorityOf(r[i]) == PriorityOf(r[j])
              ==> LexLe(Lower(r[i].description), Lower(r[j].description))
    ensures forall k :: KeyFilter(r, TriggerSortKey, k) == KeyFilter(triggers, TriggerSortKey, k)
  {
    PriorityThenTextIsTotalOrder();
    var r := SortBy(triggers, TriggerSortKey, PriorityThenText);
    assert forall i, j :: 0 <= i < j < |r| ==> PriorityThenText(TriggerSortKey(r[i]), TriggerSortKey(r[j]));
    r
  }

  /** The item order is the only one `sorted` can produce: any permutation
      ordered by lower-cased name that keeps equal names in input order is it. */
  lemma SortItemsUnique(items: seq<Item>, r: seq<Item>)
    requires forall i, j :: 0 <= i < j < |r| ==> LexLe(Lower(r[i].name), Lower(r[j].name))
    requires forall k :: KeyFilter(r, ItemSortKey, k) == KeyFilter(items, ItemSortKey, k)
    ensures r == SortItems(items)
  {
    LexLeIsTotalOrder();
    var s := SortItems(items);
    assert SortedBy(s, ItemSortKey, LexLe);
    assert SortedBy(r, ItemSortKey, LexLe);
    SortedStableUnique(r, s, ItemSortKey, LexLe);
  }

  /** The trigger order is the only one `sorted` can produce from its key. */
  lemma SortTriggersUnique(triggers: seq<Trigger>, r: seq<Trigger>)
    requires forall i, j :: 0 <= i < j < |r| ==> PriorityOf(r[i]) >= PriorityOf(r[j])
    requires forall i, j :: 0 <= i < j < |r| && PriorityOf(r[i]) == PriorityOf(r[j])
               ==> LexLe(Lower(r[i].description), Lower(r[j].description))
    requires forall k :: KeyFilter(r, TriggerSortKey, k) == KeyFilter(triggers, TriggerSortKey, k)
    ensures r == SortTriggers(triggers)
  {
    PriorityThenTextIsTotalOrder();
    var s := SortTriggers(triggers);
    assert SortedBy(s, TriggerSortKey, PriorityThenText);
    assert SortedBy(r, TriggerSortKey, PriorityThenText);
    SortedStableUnique(r, s, TriggerSortKey, PriorityThenText);
  }

  /** The HTML report and the spreadsheet sort the items again from the same
      list; sorting an already sorted list changes nothing. */
  lemma SortItemsIdempotent(items: seq<Item>)
    ensures SortItems(SortItems(items)) == SortItems(items)
  {
    LexLeIsTotalOrder();
    SortByIdempotent(items, ItemSortKey, LexLe);
  }

  lemma SortTriggersIdempotent(triggers: seq<Trigger>)
    ensures SortTriggers(SortTriggers(triggers)) == SortTriggers(triggers)
  {
    PriorityThenTextIsTotalOrder();
    SortByIdempotent(triggers, TriggerSortKey, PriorityThenText);
  }

  /** Case is ignored but kept: "b", "A", "a" sort to "A", "a", "b", the two
      names equal up to case staying in input order. */
  lemma SortItemsExample(x: Item, y: Item, z: Item)
    requires x.name == "b" && y.name == "A" && z.name == "a"
    ensures SortItems([x, y, z]) == [y, z, x]
  {
    var r := [y, z, x];
    assert Lower("A") == "a" && Lower("a") == "a" && Lower("b") == "b";
    assert LexLe("a", "b");
    assert ItemSortKey(x) == "b" && ItemSortKey(y) == "a" && ItemSortKey(z) == "a";
    forall k ensures KeyFilter(r, ItemSortKey, k) == KeyFilter([x, y, z], ItemSortKey, k) {
      assert [x, y, z] == [x] + ([y] + [z]);
      KeyFilterAppend([x], [y] + [z], ItemSortKey, k);
      KeyFilterAppend([y], [z], ItemSortKey, k);
      assert r == [y] + ([z] + [x]);
      KeyFilterAppend([y], [z] + [x], ItemSortKey, k);
      KeyFilterAppend([z], [x], ItemSortKey, k);
      assert [x][1..] == [] && [y][1..] == [] && [z][1..] == [];
    }
    SortItemsUnique([x, y, z], r);
  }
}

=== FILE: rows.dfy ===
/** How one record becomes cells of the HTML report and of the spreadsheet:
    tag lists, status and acknowledgement labels, the severity fills of the
    spreadsheet, and the active-problems table with its placeholder row. */
module Rows {
  import opened Seqs
  import opened Tables
  import opened Records
  import opened Duration

  // ---------------------------------------------------------------- tags

  /** A tag as both reports print it: `tag:value` when the value is non-empty,
      the bare tag name otherwise (export-gerencial.py:746, 1088). */
  function TagLabel(t: Tag): (r: string)
    ensures |t.tag| <= |r| && r[..|t.tag|] == t.tag
    ensures |r| == |t.tag| <==> t.value.None? || t.value == Some("")
  {
    if t.value.Some? && t.value.value != "" then t.tag + ":" + t.value.value else t.tag
  }

  /** A tag as its label shows it: an empty value is indistinguishable from none. */
  function Shown(t: Tag): Tag
  {
    if t.value == Some("") then Tag(t.tag, None) else t
  }

  /** Reads a tag label back: the name up to the first ':', the rest as value. */
  function ParseTagLabel(s: string): Tag
  {
    if ':' in s then
      var i := IndexOf(s, ':');
      Tag(s[..i], Some(s[i + 1..]))
    else Tag(s, None)
  }

  /** A label loses nothing but the difference between an empty and a missing
      value, provided the tag name has no ':'. */
  lemma TagLabelRoundTrip(t: Tag)
    requires ':' !in t.tag
    ensures ParseTagLabel(TagLabel(t)) == Shown(t)
  {
    var s := TagLabel(t);
    if t.value.Some? && t.value.value != "" {
      assert s == t.tag + [':'] + t.value.value;
      assert s[|t.tag|] == ':' && s[..|t.tag|] == t.tag;
      IndexOfUnique(s, ':', |t.tag|);
      assert s[|t.tag| + 1..] == t.value.value;
    }
  }

  /** Two tags with ':'-free names have the same label exactly when they show
      the same name and value. */
  lemma TagLabelInjective(a: Tag, b: Tag)
    requires ':' !in a.tag && ':' !in b.tag
    ensures TagLabel(a) == TagLabel(b) <==> Shown(a) == Shown(b)
  {
    TagLabelRoundTrip(a);
    TagLabelRoundTrip(b);
  }

  /** The HTML tags cell: a dash, or one chip per tag (export-gerencial.py:744-747, 758). */
  datatype HtmlTags = Dash | Chips(labels: seq<string>)

  /** Each tag renders as a non-empty `<span>`, so the markup is empty, and the
      cell a dash, exactly when there are no tags. */
  function HtmlTagCell(tags: seq<Tag>): (r: HtmlTags)
    ensures r.Dash? <==> |tags| == 0
    ensures r.Chips? ==> |r.labels| == |tags| && forall i :: 0 <= i < |tags| ==> r.labels[i] == TagLabel(tags[i])
  {
    if |tags| == 0 then Dash else Chips(Map(tags, TagLabel))
  }

  /** The spreadsheet tags cell: the labels joined with ", ", or "-" when that
      gives the empty string (export-gerencial.py:1088, 1098, 1135, 1143). */
  function SheetTagCell(tags: seq<Tag>): (r: string)
    ensures r != ""
    ensures |tags| == 0 ==> r == "-"
  {
    var joined := Join(Map(tags, TagLabel), ", ");
    if joined == "" then "-" else joined
  }

  /** Drops the one space that follows each ',' of a joined cell. */
  function DropSpace(p: string): string
  {
    if |p| != 0 && p[0] == ' ' then p[1..] else p
  }

  function PrefixSpace(p: string): string
  {
    " " + p
  }

  /** Reads a spreadsheet tags cell back into its labels. */
  function ParseSheetTags(cell: string): seq<string>
  {
    if cell == "-" then []
    else
      var pieces := Split(cell, ',');
      [pieces[0]] + Map(pieces[1..], DropSpace)
  }

  /** A separator ", " is a ',' followed by a space that starts the next part. */
  lemma {:induction false} JoinCommaSpace(ps: seq<string>)
    requires |ps| >= 1
    ensures " " + Join(ps, ", ") == Join(Map(ps, PrefixSpace), ",")
  {
    if |ps| >= 2 {
      JoinCommaSpace(ps[1..]);
      assert Map(ps, PrefixSpace)[1..] == Map(ps[1..], PrefixSpace);
      assert " " + Join(ps, ", ") == (" " + ps[0]) + "," + (" " + Join(ps[1..], ", "));
    }
  }

  /** A join with ", " is empty, or a single "-", only for no parts or one such part. */
  lemma JoinedBlank(ps: seq<string>, x: string)
    requires x == "" || x == "-"
    ensures Join(ps, ", ") == x <==> (|ps| == 0 && x == "") || (|ps| == 1 && ps[0] == x)
  {
    InJoin(ps, ", ", ',');
  }

  /** The spreadsheet shows "-" for no tags, and also for a single tag whose
      label is empty or itself "-". */
  lemma SheetTagCellDash(tags: seq<Tag>)
    ensures SheetTagCell(tags) == "-" <==>
            |tags| == 0 || (|tags| == 1 && (TagLabel(tags[0]) == "" || TagLabel(tags[0]) == "-"))
  {
    var labels := Map(tags, TagLabel);
    JoinedBlank(labels, "");
    JoinedBlank(labels, "-");
  }

  /** The parts of a ", "-joined cell as a split on ',' sees them: every part
      but the first keeps the space of its separator. */
  function Spaced(labels: seq<string>): (r: seq<string>)
    requires |labels| >= 1
  {
    [labels[0]] + Map(labels[1..], PrefixSpace)
  }

  lemma SpacedJoin(labels: seq<string>)
    requires |labels| >= 1
    ensures Join(labels, ", ") == Join(Spaced(labels), ",")
  {
    var spaced := Spaced(labels);
    if |labels| == 1 {
      assert spaced == labels;
    } else {
      SpacedJoinStep(labels[0], labels[1..], spaced);
    }
  }

  lemma SpacedJoinStep(head: string, rest: seq<string>, spaced: seq<string>)
    requires |rest| >= 1
    requires spaced == [head] + Map(rest, PrefixSpace)
    ensures Join([head] + rest, ", ") == Join(spaced, ",")
  {
    var joined := Join(rest, ", ");
    JoinCons(head, rest, ", ");
    JoinCons(head, Map(rest, PrefixSpace), ",");
    JoinCommaSpace(rest);
    CommaSpace(head, joined);
  }

  lemma JoinCons(head: string, rest: seq<string>, sep: string)
    requires |rest| >= 1
    ensures Join([head] + rest, sep) == head + sep + Join(rest, sep)
  {
    assert ([head] + rest)[1..] == rest;
  }

  lemma CommaSpace(head: string, tail: string)
    ensures head + ", " + tail == head + "," + (" " + tail)
  {
  }

  lemma SpacedSplit(labels: seq<string>)
    requires |labels| >= 1
    requires forall i :: 0 <= i < |labels| ==> ',' !in labels[i]
    ensures Split(Join(labels, ", "), ',') == Spaced(labels)
  {
    var spaced := Spaced(labels);
    SpacedJoin(labels);
    forall i | 0 <= i < |spaced| ensures ',' !in spaced[i] {
      if i != 0 {
        assert spaced[i] == " " + labels[i];
      }
    }
    SplitJoin(spaced, ',');
  }

  lemma SpacedDrop(labels: seq<string>)
    requires |labels| >= 1
    ensures [Spaced(labels)[0]] + Map(Spaced(labels)[1..], DropSpace) == labels
  {
    var spaced := Spaced(labels);
    assert Map(spaced[1..], DropSpace) == labels[1..];
    assert labels == [labels[0]] + labels[1..];
  }

  /** The spreadsheet cell can be read back into the tag labels, when no label
      is empty or "-" and none contains ','. */
  lemma SheetTagCellRoundTrip(tags: seq<Tag>)
    requires forall i :: 0 <= i < |tags| ==> ',' !in TagLabel(tags[i]) && TagLabel(tags[i]) != "" && TagLabel(tags[i]) != "-"
    ensures ParseSheetTags(SheetTagCell(tags)) == Map(tags, TagLabel)
  {
    SheetTagCellDash(tags);
    var labels := Map(tags, TagLabel);
    if |tags| != 0 {
      var cell := Join(labels, ", ");
      assert SheetTagCell(tags) == cell;
      SpacedSplit(labels);
      SpacedDrop(labels);
    }
  }

  /** The two reports agree on whether a record has tags, and show the same
      labels in the same order, unless a label is empty or "-". */
  lemma TagCellsAgree(tags: seq<Tag>)
    requires forall i :: 0 <= i < |tags| ==> TagLabel(tags[i]) != "" && TagLabel(tags[i]) != "-"
    ensures HtmlTagCell(tags).Dash? <==> SheetTagCell(tags) == "-"
    ensures HtmlTagCell(tags).Chips? ==> SheetTagCell(tags) == Join(HtmlTagCell(tags).labels, ", ")
  {
    SheetTagCellDash(tags);
  }

  /** A single tag with an empty name and no value, or an empty value, is a
      chip in the HTML report but a dash in the spreadsheet. With a non-empty
      value both show ":value". */
  lemma EmptyTagNameDiffers()
    ensures HtmlTagCell([Tag("", None)]) == Chips([""])
    ensures SheetTagCell([Tag("", None)]) == "-"
    ensures HtmlTagCell([Tag("", Some(""))]) == Chips([""])
    ensures SheetTagCell([Tag("", Some(""))]) == "-"
    ensures HtmlTagCell([Tag("", Some("v"))]) == Chips([":v"])
    ensures SheetTagCell([Tag("", Some("v"))]) == ":v"
  {
    assert Map([Tag("", None)], TagLabel) == [""];
    assert Map([Tag("", Some(""))], TagLabel) == [""];
    assert TagLabel(Tag("", Some("v"))) == "" + ":" + "v" == ":v";
    assert Map([Tag("", Some("v"))], TagLabel) == [":v"];
  }

  // ---------------------------------------------------------------- status

  /** The HTML status label: `STATUS_MAP.get(record.get("status", "0"))`, a
      missing status read as "0" (export-gerencial.py:740, 792). It says the
      same as the spreadsheet cell exactly for the two statuses the table
      knows: a missing status is "Ativo" here and "Desabilitado" there, any
      other code "Desconhecido" against "Desabilitado". */
  function HtmlStatusBadge(status: Option<string>): (b: Badge)
    ensures b.name == "Ativo" <==> status == Some("0") || status == None
    ensures b.name == "Desabilitado" <==> status == Some("1")
    ensures b == UNKNOWN_BADGE <==> status.Some? && status.value !in STATUS_MAP
    ensures b.name == SheetStatus(status) <==> status == Some("0") || status == Some("1")
  {
    StatusBadge(status.GetOr("0"))
  }

  /** The HTML status cell's style: active only for a status of exactly "0",
      with no default (export-gerencial.py:751, 803). */
  predicate HtmlStatusActive(status: Option<string>)
    ensures HtmlStatusActive(status) <==> status.Some? && StatusBadge(status.value).name == "Ativo"
  {
    status == Some("0")
  }

  /** The spreadsheet status: "Ativo" for "0", "Desabilitado" for anything else,
      a missing status among them (export-gerencial.py:1084, 1131). */
  function SheetStatus(status: Option<string>): (r: string)
    ensures r == "Ativo" || r == "Desabilitado"
    ensures r == "Ativo" <==> HtmlStatusActive(status)
  {
    if status == Some("0") then "Ativo" else "Desabilitado"
  }

  /** A missing status is labelled "Ativo" in the HTML report but styled, and
      written in the spreadsheet, as disabled. */
  lemma MissingStatusExample()
    ensures HtmlStatusBadge(None).name == "Ativo"
    ensures !HtmlStatusActive(None)
    ensures SheetStatus(None) == "Desabilitado"
  {
  }

  /** A solid spreadsheet cell fill, as an RGB hex string, or none. */
  datatype Fill = NoFill | Solid(rgb: string)

  const FILL_OK := Solid("C8E6C9")

  /** The fill of the status cell of the items sheet (export-gerencial.py:1104-1108);
      the triggers sheet fills only its priority column. */
  function StatusFill(status: Option<string>): (f: Fill)
    ensures f == FILL_OK <==> SheetStatus(status) == "Ativo"
    ensures f.Solid?
  {
    if SheetStatus(status) == "Ativo" then FILL_OK else Solid("FFCDD2")
  }

  // ---------------------------------------------------------------- severity fills

  /** The colour the spreadsheet gives each coloured code. */
  const FILL_COLORS: map<string, string> := map[
    "5" := "FFCDD2",
    "4" := "FFCCBC",
    "3" := "FFE0B2",
    "2" := "FFF9C4",
    "1" := "BBDEFB"
  ]

  /** The fill of a trigger's "Severidade" cell: priorities 1 to 5 coloured,
      0 and anything else left plain (export-gerencial.py:1150-1160). */
  function TriggerPriorityFill(code: string): (f: Fill)
    ensures f == NoFill <==> code !in FILL_COLORS
    ensures f.Solid? ==> f.rgb == FILL_COLORS[code]
  {
    if code == "5" then Solid("FFCDD2")
    else if code == "4" then Solid("FFCCBC")
    else if code == "3" then Solid("FFE0B2")
    else if code == "2" then Solid("FFF9C4")
    else if code == "1" then Solid("BBDEFB")
    else NoFill
  }

  /** The fill of a problem's "Severidade" cell: only severities 3 to 5 are
      coloured, in the colour of the same trigger priority
      (export-gerencial.py:1209-1215). */
  function ProblemSeverityFill(code: string): (f: Fill)
    ensures f == NoFill <==> code != "5" && code != "4" && code != "3"
    ensures f.Solid? ==> f == TriggerPriorityFill(code)
  {
    if code == "5" then Solid("FFCDD2")
    else if code == "4" then Solid("FFCCBC")
    else if code == "3" then Solid("FFE0B2")
    else NoFill
  }

  // ---------------------------------------------------------------- acknowledgement

  /** "Reconhecido": "Sim" exactly for an acknowledged flag of "1"
      (export-gerencial.py:868, 1201). */
  function AckLabel(acknowledged: Option<string>): (r: string)
    ensures r == "Sim" || r == "Não"
    ensures r == "Sim" <==> acknowledged == Some("1")
  {
    if acknowledged == Some("1") then "Sim" else "Não"
  }

  // ---------------------------------------------------------------- active problems

  const NO_PROBLEMS := "Nenhum alerta ativo no momento"

  /** One active problem as a row; `started` is its start time, which the
      reports format as a date, `None` for a missing one. */
  datatype ProblemRow = ProblemRow(
    severity: Badge,
    severityFill: Fill,
    name: string,
    started: Option<nat>,
    duration: string,
    acknowledged: string)

  /** A line of the active-problems table. */
  datatype ProblemLine = Placeholder(message: string, fill: Fill) | Row(row: ProblemRow)

  /** One problem's row read at time `now`. */
  function ProblemRowOf(p: Problem, now: int): (r: ProblemRow)
    ensures r.duration == "-" <==> r.started == None
    ensures r.acknowledged == "Sim" <==> p.acknowledged == Some("1")
  {
    var code := p.severity;
    ProblemRow(
      PriorityBadge(code),
      ProblemSeverityFill(code),
      p.name,
      if p.clock == 0 then None else Some(p.clock),
      DurationLabel(now, p.clock),
      AckLabel(p.acknowledged))
  }

  /** The active-problems table: one row per problem in the order given, or,
      when there are none, exactly one placeholder line
      (export-gerencial.py:846-886, 1179-1220). The placeholder's fill is the
      spreadsheet's (line 1218); the HTML placeholder has no fill, only green
      text (line 885). The clock is read once, as `now`, for the whole table. */
  function ProblemLines(problems: seq<Problem>, now: int): (lines: seq<ProblemLine>)
    ensures |lines| >= 1
    ensures |problems| == 0 ==> lines == [Placeholder(NO_PROBLEMS, FILL_OK)]
    ensures |problems| != 0 ==>
      && |lines| == |problems|
      && (forall i :: 0 <= i < |problems| ==> lines[i] == Row(ProblemRowOf(problems[i], now)))
  {
    if |problems| == 0 then [Placeholder(NO_PROBLEMS, FILL_OK)]
    else Map(problems, (p: Problem) => Row(ProblemRowOf(p, now)))
  }

  /** The placeholder appears exactly when there are no problems, and then alone;
      otherwise the table has one line per problem. */
  lemma PlaceholderIffEmpty(problems: seq<Problem>, now: int)
    ensures var lines := ProblemLines(problems, now);
      && ((exists i :: 0 <= i < |lines| && lines[i].Placeholder?) <==> |problems| == 0)
      && |lines| == if |problems| == 0 then 1 else |problems|
  {
    var lines := ProblemLines(problems, now);
    if |problems| == 0 {
      assert lines[0].Placeholder?;
    }
  }
}

=== FILE: seqs.dfy ===
/** Generic helpers over sequences and strings that the report model shares:
    optional values, predicate counts, key filters, and joining and splitting
    strings on a separator. */
module Seqs {

  /** A value that may be absent, as a field missing from a fetched record. */
  datatype Option<+T> = None | Some(value: T) {

    /** The value, or `default` when absent (Python's `d.get(key, default)`). */
    function GetOr(default: T): T {
      match this
      case Some(v) => v
      case None => default
    }
  }

  /** Number of elements of `s` satisfying `p`, as in `sum(1 for x in s if p(x))`. */
  function CountIf<T>(s: seq<T>, p: T -> bool): (n: nat)
    ensures n <= |s|
    ensures n == |s| <==> forall i :: 0 <= i < |s| ==> p(s[i])
    ensures n == 0 <==> forall i :: 0 <= i < |s| ==> !p(s[i])
  {
    if |s| == 0 then 0
    else
      var rest := CountIf(s[1..], p);
      assert forall i :: 1 <= i < |s| ==> s[i] == s[1..][i - 1];
      (if p(s[0]) then 1 else 0) + rest
  }

  lemma {:induction false} CountIfAppend<T>(a: seq<T>, b: seq<T>, p: T -> bool)
    ensures CountIf(a + b, p) == CountIf(a, p) + CountIf(b, p)
  {
    if |a| == 0 {
      assert a + b == b;
    } else {
      assert (a + b)[1..] == a[1..] + b;
      CountIfAppend(a[1..], b, p);
    }
  }

  /** One element more, counted: `CountIf` grows by one exactly when the new
      element satisfies the predicate. */
  lemma CountIfSnoc<T>(s: seq<T>, x: T, p: T -> bool)
    ensures CountIf(s + [x], p) == CountIf(s, p) + (if p(x) then 1 else 0)
  {
    CountIfAppend(s, [x], p);
    assert [x][1..] == [];
  }

  /** Two predicates that agree on every element count the same elements. */
  lemma {:induction false} CountIfSame<T>(s: seq<T>, p: T -> bool, q: T -> bool)
    requires forall i :: 0 <= i < |s| ==> (p(s[i]) <==> q(s[i]))
    ensures CountIf(s, p) == CountIf(s, q)
  {
    if |s| != 0 {
      CountIfSame(s[1..], p, q);
    }
  }

  /** Counting `p` and its disjoint companion `q` counts at most every element once,
      and exactly once when every element satisfies one of them. */
  lemma {:induction false} CountIfDisjoint<T>(s: seq<T>, p: T -> bool, q: T -> bool)
    requires forall i :: 0 <= i < |s| ==> !(p(s[i]) && q(s[i]))
    ensures CountIf(s, p) + CountIf(s, q) <= |s|
    ensures CountIf(s, p) + CountIf(s, q) == |s| <==> forall i :: 0 <= i < |s| ==> p(s[i]) || q(s[i])
  {
    if |s| != 0 {
      CountIfDisjoint(s[1..], p, q);
      assert forall i :: 1 <= i < |s| ==> s[i] == s[1..][i - 1];
      if forall i :: 0 <= i < |s| ==> p(s[i]) || q(s[i]) {
        assert forall i :: 0 <= i < |s[1..]| ==> p(s[1..][i]) || q(s[1..][i]) by {
          forall i | 0 <= i < |s[1..]| ensures p(s[1..][i]) || q(s[1..][i]) {
            assert s[1..][i] == s[i + 1];
          }
        }
      }
    }
  }

  /** `[f(x) for x in s]`. */
  function Map<A, B>(s: seq<A>, f: A -> B): (r: seq<B>)
    ensures |r| == |s|
    ensures forall i :: 0 <= i < |s| ==> r[i] == f(s[i])
  {
    seq(|s|, i requires 0 <= i < |s| => f(s[i]))
  }

  /** How often `k` occurs among the images is how many elements map to `k`. */
  lemma {:induction false} CountMapped<A, B>(s: seq<A>, f: A -> B, k: B)
    ensures multiset(Map(s, f))[k] == CountIf(s, x => f(x) == k)
  {
    if |s| != 0 {
      CountMapped(s[1..], f, k);
      assert Map(s, f) == [f(s[0])] + Map(s[1..], f);
    }
  }

  /** The elements of `s` whose key is `k`, in their order in `s`. */
  function KeyFilter<T, K(==)>(s: seq<T>, key: T -> K, k: K): seq<T>
  {
    if |s| == 0 then []
    else if key(s[0]) == k then [s[0]] + KeyFilter(s[1..], key, k)
    else KeyFilter(s[1..], key, k)
  }

  lemma {:induction false} KeyFilterAppend<T, K>(a: seq<T>, b: seq<T>, key: T -> K, k: K)
    ensures KeyFilter(a + b, key, k) == KeyFilter(a, key, k) + KeyFilter(b, key, k)
  {
    if |a| == 0 {
      assert a + b == b;
    } else {
      assert (a + b)[1..] == a[1..] + b;
      KeyFilterAppend(a[1..], b, key, k);
    }
  }

  /** The elements kept are elements of `s` with key `k`, and one is kept
      whenever `s` has an element with key `k`. */
  lemma {:induction false} KeyFilterMembers<T, K>(s: seq<T>, key: T -> K, k: K)
    ensures forall x :: x in KeyFilter(s, key, k) ==> x in s && key(x) == k
    ensures (exists j :: 0 <= j < |s| && key(s[j]) == k) ==> |KeyFilter(s, key, k)| != 0
  {
    if |s| != 0 {
      KeyFilterMembers(s[1..], key, k);
      if key(s[0]) != k && exists j :: 0 <= j < |s| && key(s[j]) == k {
        var j :| 0 <= j < |s| && key(s[j]) == k;
        assert s[1..][j - 1] == s[j];
      }
    }
  }

  /** No element occurs twice. */
  ghost predicate Distinct<T>(s: seq<T>) {
    forall i, j :: 0 <= i < j < |s| ==> s[i] != s[j]
  }

  /** The tail of a repeat-free sequence is repeat-free and lacks the head. */
  lemma DistinctTail<T>(s: seq<T>)
    requires Distinct(s) && |s| != 0
    ensures Distinct(s[1..]) && s[0] !in s[1..]
  {
    var t := s[1..];
    forall a, b | 0 <= a < b < |t| ensures t[a] != t[b] {
      assert t[a] == s[a + 1] && t[b] == s[b + 1];
    }
    forall y | 0 <= y < |t| ensures t[y] != s[0] {
      assert t[y] == s[y + 1];
    }
  }

  /** In a sequence without repeats, the first position of an element of the
      tail is one more than its position in the tail. */
  lemma IndexOfTail<T>(s: seq<T>, x: T)
    requires |s| != 0 && x in s[1..] && x != s[0]
    ensures IndexOf(s, x) == 1 + IndexOf(s[1..], x)
  {
    var t := s[1..];
    var j := IndexOf(t, x);
    assert x !in s[..j + 1] by {
      forall y | 0 <= y <= j ensures s[y] != x {
        if y != 0 {
          assert s[y] == t[..j][y - 1];
        }
      }
    }
    IndexOfUnique(s, x, j + 1);
  }

  /** Filtering keeps the relative order of the elements it keeps: two elements
      of a repeat-free `s` with key `k` come in the filter in their order in `s`. */
  lemma {:induction false} KeyFilterKeepsOrder<T, K>(s: seq<T>, key: T -> K, k: K, i: nat, j: nat)
    requires Distinct(s)
    requires i < j < |s| && key(s[i]) == k && key(s[j]) == k
    ensures s[i] in KeyFilter(s, key, k) && s[j] in KeyFilter(s, key, k)
    ensures IndexOf(KeyFilter(s, key, k), s[i]) < IndexOf(KeyFilter(s, key, k), s[j])
  {
    var f := KeyFilter(s, key, k);
    var t := s[1..];
    DistinctTail(s);
    assert s[j] == t[j - 1];
    KeyFilterMembers(t, key, k);
    assert s[j] in KeyFilter(t, key, k) by {
      KeyFilterContains(t, key, k, j - 1);
    }
    if i == 0 {
      assert f == [s[0]] + KeyFilter(t, key, k);
      assert s[j] != s[0];
      IndexOfTail(f, s[j]);
    } else {
      assert s[i] == t[i - 1];
      KeyFilterKeepsOrder(t, key, k, i - 1, j - 1);
      if key(s[0]) == k {
        assert f == [s[0]] + KeyFilter(t, key, k);
        assert s[i] != s[0] && s[j] != s[0];
        IndexOfTail(f, s[i]);
        IndexOfTail(f, s[j]);
      }
    }
  }

  /** Every element with key `k` is kept by the filter. */
  lemma {:induction false} KeyFilterContains<T, K>(s: seq<T>, key: T -> K, k: K, j: nat)
    requires j < |s| && key(s[j]) == k
    ensures s[j] in KeyFilter(s, key, k)
  {
    if j != 0 {
      assert s[j] == s[1..][j - 1];
      KeyFilterContains(s[1..], key, k, j - 1);
    }
  }

  /** An element kept by the filter is an element of `s`. */
  lemma KeyFilterIn<T, K>(s: seq<T>, key: T -> K, k: K, a: nat)
    requires a < |KeyFilter(s, key, k)|
    ensures KeyFilter(s, key, k)[a] in s
  {
    KeyFilterMembers(s, key, k);
  }

  /** Conversely, the filter of a repeat-free `s` lists its elements in their
      order in `s`. */
  lemma {:induction false} KeyFilterPositions<T, K>(s: seq<T>, key: T -> K, k: K, a: nat, b: nat)
    requires Distinct(s)
    requires a < b < |KeyFilter(s, key, k)|
    ensures KeyFilter(s, key, k)[a] in s && KeyFilter(s, key, k)[b] in s
    ensures IndexOf(s, KeyFilter(s, key, k)[a]) < IndexOf(s, KeyFilter(s, key, k)[b])
  {
    var f := KeyFilter(s, key, k);
    var t := s[1..];
    var g := KeyFilter(t, key, k);
    KeyFilterIn(s, key, k, a);
    KeyFilterIn(s, key, k, b);
    DistinctTail(s);
    if key(s[0]) == k {
      assert f == [s[0]] + g;
      assert f[b] == g[b - 1];
      KeyFilterIn(t, key, k, b - 1);
      IndexOfTail(s, f[b]);
      if a != 0 {
        assert f[a] == g[a - 1];
        KeyFilterIn(t, key, k, a - 1);
        KeyFilterPositions(t, key, k, a - 1, b - 1);
        IndexOfTail(s, f[a]);
      }
    } else {
      assert f == g;
      KeyFilterIn(t, key, k, a);
      KeyFilterIn(t, key, k, b);
      KeyFilterPositions(t, key, k, a, b);
      IndexOfTail(s, f[a]);
      IndexOfTail(s, f[b]);
    }
  }

  /** The first `n` elements of `s`, or all of them when `s` is shorter. */
  function Take<T>(s: seq<T>, n: nat): (r: seq<T>)
    ensures |r| == if |s| < n then |s| else n
    ensures r <= s
  {
    if |s| <= n then s else s[..n]
  }

  /** A prefix keeps the elements at their positions and takes no element twice. */
  lemma TakeSub<T>(s: seq<T>, n: nat)
    ensures multiset(Take(s, n)) <= multiset(s)
    ensures forall i :: 0 <= i < |Take(s, n)| ==> Take(s, n)[i] == s[i]
  {
    var r := Take(s, n);
    assert s == r + s[|r|..];
    assert multiset(s) == multiset(r) + multiset(s[|r|..]);
  }

  /** Position of the first occurrence of `x` in `s`. */
  function IndexOf<T(==)>(s: seq<T>, x: T): (i: nat)
    requires x in s
    ensures i < |s| && s[i] == x && x !in s[..i]
  {
    if s[0] == x then 0
    else
      var j := IndexOf(s[1..], x);
      assert s[1..][..j] == s[1..j + 1];
      assert s[..j + 1] == [s[0]] + s[1..j + 1];
      1 + j
  }

  /** A first occurrence is determined by its defining property. */
  lemma IndexOfUnique<T>(s: seq<T>, x: T, i: nat)
    requires i < |s| && s[i] == x && x !in s[..i]
    ensures IndexOf(s, x) == i
  {
    var j := IndexOf(s, x);
    assert s[j] == x && x !in s[..j];
  }

  /** Appending keeps the first occurrence of an element already present. */
  lemma IndexOfAppend<T>(s: seq<T>, y: T, x: T)
    requires x in s
    ensures x in s + [y] && IndexOf(s + [y], x) == IndexOf(s, x)
  {
    var i := IndexOf(s, x);
    assert (s + [y])[..i] == s[..i];
    IndexOfUnique(s + [y], x, i);
  }

  /** `parts` joined with `sep` between consecutive parts (Python `sep.join(parts)`). */
  function Join(parts: seq<string>, sep: string): string
  {
    if |parts| == 0 then ""
    else if |parts| == 1 then parts[0]
    else parts[0] + sep + Join(parts[1..], sep)
  }

  /** The pieces of `s` between occurrences of `c` (Python `s.split(c)`). */
  function Split(s: string, c: char): (r: seq<string>)
    ensures |r| >= 1
    decreases |s|
  {
    if c !in s then [s]
    else
      var i := IndexOf(s, c);
      [s[..i]] + Split(s[i + 1..], c)
  }

  /** Splitting a string whose first separator follows `a` yields `a` first. */
  lemma SplitCons(a: string, c: char, b: string)
    requires c !in a
    ensures Split(a + [c] + b, c) == [a] + Split(b, c)
  {
    var s := a + [c] + b;
    assert s[|a|] == c;
    assert s[..|a|] == a;
    IndexOfUnique(s, c, |a|);
    assert s[|a| + 1..] == b;
  }

  /** Splitting on `c` undoes joining with `c` when no part contains `c`. */
  lemma {:induction false} SplitJoin(parts: seq<string>, c: char)
    requires |parts| >= 1
    requires forall i :: 0 <= i < |parts| ==> c !in parts[i]
    ensures Split(Join(parts, [c]), c) == parts
  {
    if |parts| > 1 {
      SplitJoin(parts[1..], c);
      SplitCons(parts[0], c, Join(parts[1..], [c]));
      assert parts == [parts[0]] + parts[1..];
    }
  }

  /** A character of a joined string comes from a part or from a separator. */
  lemma {:induction false} InJoin(parts: seq<string>, sep: string, x: char)
    ensures x in Join(parts, sep) <==>
            (exists i :: 0 <= i < |parts| && x in parts[i]) || (|parts| >= 2 && x in sep)
  {
    if |parts| >= 2 {
      InJoin(parts[1..], sep, x);
      var rest := Join(parts[1..], sep);
      assert Join(parts, sep) == parts[0] + sep + rest;
      assert x in parts[0] + sep + rest <==> x in parts[0] || x in sep || x in rest;
      if exists i :: 1 <= i < |parts| && x in parts[i] {
        var i :| 1 <= i < |parts| && x in parts[i];
        assert x in parts[1..][i - 1];
      }
      if exists i :: 0 <= i < |parts[1..]| && x in parts[1..][i] {
        var i :| 0 <= i < |parts[1..]| && x in parts[1..][i];
        assert x in parts[i + 1];
      }
    }
  }
}

=== FILE: stable_sort.dfy ===
/** Python's `sorted(s, key=key)`: a stable sort by a key under a total order.
    Modelled as insertion sort; the contract is what `sorted` promises: the
    result is a permutation, ordered by key, and elements with equal keys keep
    their input order. */
module StableSort {
  import opened Seqs
  import opened Orders

  /** Every earlier element's key is at most every later element's key. */
  ghost predicate SortedBy<T, K>(s: seq<T>, key: T -> K, le: (K, K) -> bool) {
    forall i, j :: 0 <= i < j < |s| ==> le(key(s[i]), key(s[j]))
  }

  /** `x` placed before the first element whose key it does not exceed. */
  function Insert<T, K>(x: T, s: seq<T>, key: T -> K, le: (K, K) -> bool): (r: seq<T>)
    ensures multiset(r) == multiset(s) + multiset{x}
  {
    if |s| == 0 || le(key(x), key(s[0])) then [x] + s
    else
      assert s == [s[0]] + s[1..];
      [s[0]] + Insert(x, s[1..], key, le)
  }

  lemma {:induction false} InsertSorted<T, K(!new)>(x: T, s: seq<T>, key: T -> K, le: (K, K) -> bool)
    requires TotalOrder(le)
    requires SortedBy(s, key, le)
    ensures SortedBy(Insert(x, s, key, le), key, le)
  {
    if |s| == 0 || le(key(x), key(s[0])) {
    } else {
      var rest := Insert(x, s[1..], key, le);
      InsertSorted(x, s[1..], key, le);
      forall y | y in rest ensures le(key(s[0]), key(y)) {
        assert y in multiset(rest);
        if y != x {
          assert y in s[1..];
        }
      }
      assert Insert(x, s, key, le) == [s[0]] + rest;
    }
  }

  /** Inserting `x` puts it before every element that shares its key. */
  lemma {:induction false} InsertKeyFilter<T, K(!new)>(x: T, s: seq<T>, key: T -> K, le: (K, K) -> bool)
    requires TotalOrder(le)
    ensures forall k :: KeyFilter(Insert(x, s, key, le), key, k)
                        == if key(x) == k then [x] + KeyFilter(s, key, k) else KeyFilter(s, key, k)
  {
    if |s| == 0 || le(key(x), key(s[0])) {
      assert ([x] + s)[1..] == s;
    } else {
      InsertKeyFilter(x, s[1..], key, le);
      var r := Insert(x, s, key, le);
      assert r[1..] == Insert(x, s[1..], key, le);
      assert key(s[0]) != key(x);
    }
  }

  /** `sorted(s, key=key)` for keys compared with `le`. */
  function SortBy<T, K(==, !new)>(s: seq<T>, key: T -> K, le: (K, K) -> bool): (r: seq<T>)
    requires TotalOrder(le)
    ensures multiset(r) == multiset(s)
    ensures SortedBy(r, key, le)
    ensures forall k :: KeyFilter(r, key, k) == KeyFilter(s, key, k)
  {
    if |s| == 0 then []
    else
      var rest := SortBy(s[1..], key, le);
      assert s == [s[0]] + s[1..];
      InsertSorted(s[0], rest, key, le);
      InsertKeyFilter(s[0], rest, key, le);
      Insert(s[0], rest, key, le)
  }

  /** A sequence already in order is left unchanged. */
  lemma {:induction false} SortBySorted<T, K(!new)>(s: seq<T>, key: T -> K, le: (K, K) -> bool)
    requires TotalOrder(le)
    requires SortedBy(s, key, le)
    ensures SortBy(s, key, le) == s
  {
    if |s| != 0 {
      SortBySorted(s[1..], key, le);
      assert s == [s[0]] + s[1..];
    }
  }

  /** Sorting twice gives the same sequence as sorting once. */
  lemma SortByIdempotent<T, K(!new)>(s: seq<T>, key: T -> K, le: (K, K) -> bool)
    requires TotalOrder(le)
    ensures SortBy(SortBy(s, key, le), key, le) == SortBy(s, key, le)
  {
    SortBySorted(SortBy(s, key, le), key, le);
  }

  /** Sortedness and stability determine the result: two sequences ordered by
      the same key, whose elements of each key come in the same order, are
      equal. So `SortBy` is the only order `sorted` could produce. */
  lemma {:induction false} SortedStableUnique<T, K(!new)>(a: seq<T>, b: seq<T>, key: T -> K, le: (K, K) -> bool)
    requires TotalOrder(le)
    requires SortedBy(a, key, le) && SortedBy(b, key, le)
    requires forall k :: KeyFilter(a, key, k) == KeyFilter(b, key, k)
    ensures a == b
    decreases |a| + |b|
  {
    if |a| == 0 && |b| == 0 {
    } else if |a| == 0 {
      KeyFilterMembers(b, key, key(b[0]));
    } else if |b| == 0 {
      KeyFilterMembers(a, key, key(a[0]));
    } else {
      var ka, kb := key(a[0]), key(b[0]);
      KeyFilterMembers(a, key, kb);
      KeyFilterMembers(b, key, ka);
      assert |KeyFilter(b, key, ka)| != 0;
      var y := KeyFilter(b, key, ka)[0];
      var j :| 0 <= j < |b| && b[j] == y;
      assert le(kb, ka) by {
        if j != 0 {
          assert le(key(b[0]), key(b[j]));
        }
      }
      assert |KeyFilter(a, key, kb)| != 0;
      var x := KeyFilter(a, key, kb)[0];
      var i :| 0 <= i < |a| && a[i] == x;
      assert le(ka, kb) by {
        if i != 0 {
          assert le(key(a[0]), key(a[i]));
        }
      }
      assert ka == kb;
      assert KeyFilter(a, key, ka)[0] == a[0];
      assert KeyFilter(b, key, ka)[0] == b[0];
      assert a[0] == b[0];
      forall k ensures KeyFilter(a[1..], key, k) == KeyFilter(b[1..], key, k) {
        assert KeyFilter(a, key, k) == KeyFilter(b, key, k);
        if k == ka {
          assert KeyFilter(a, key, k) == [a[0]] + KeyFilter(a[1..], key, k);
          assert KeyFilter(b, key, k) == [b[0]] + KeyFilter(b[1..], key, k);
          assert KeyFilter(a[1..], key, k) == KeyFilter(a, key, k)[1..];
          assert KeyFilter(b[1..], key, k) == KeyFilter(b, key, k)[1..];
        } else {
          assert KeyFilter(a, key, k) == KeyFilter(a[1..], key, k);
          assert KeyFilter(b, key, k) == KeyFilter(b[1..], key, k);
        }
      }
      SortedStableUnique(a[1..], b[1..], key, le);
      assert a == [a[0]] + a[1..] && b == [b[0]] + b[1..];
    }
  }
}

=== FILE: statistics.dfy ===
/** `gerar_estatisticas` (export-gerencial.py:153-173): counts and frequency
    tables over a host's items and triggers, and the views of them that the
    HTML summary cards and charts show. */
module Statistics {
  import opened Seqs
  import opened Tables
  import opened Records
  import opened Counter
  import opened Decimal

  /** `stats["itens"]`. */
  datatype ItemStats = ItemStats(
    total: nat,
    active: nat,
    disabled: nat,
    byType: Counter<string>,
    byValueType: Counter<string>,
    withPreprocessing: nat,
    withTags: nat)

  /** `stats["triggers"]`. */
  datatype TriggerStats = TriggerStats(
    total: nat,
    active: nat,
    disabled: nat,
    byPriority: Counter<string>,
    withDependencies: nat,
    withTags: nat)

  datatype Statistics = Statistics(items: ItemStats, triggers: TriggerStats)

  predicate ItemActive(i: Item) { i.status == Some("0") }

  predicate ItemDisabled(i: Item) { i.status == Some("1") }

  /** An item whose status is neither "0" nor "1", or missing. */
  predicate ItemOtherStatus(i: Item) { !ItemActive(i) && !ItemDisabled(i) }

  predicate ItemHasPreprocessing(i: Item) { |i.preprocessing| > 0 }

  predicate ItemHasTags(i: Item) { |i.tags| > 0 }

  predicate ItemUnknownType(i: Item) { i.itemType !in ITEM_TYPES }

  predicate ItemUnknownValueType(i: Item) { i.valueType !in VALUE_TYPES }

  predicate TriggerActive(t: Trigger) { t.status == Some("0") }

  predicate TriggerDisabled(t: Trigger) { t.status == Some("1") }

  predicate TriggerHasDependencies(t: Trigger) { |t.dependencies| > 0 }

  predicate TriggerHasTags(t: Trigger) { |t.tags| > 0 }

  /** A trigger with no priority or priority 0, both counted under "0". */
  predicate TriggerDefaultPriority(t: Trigger) { t.priority.None? || t.priority == Some(0) }

  function TypeLabelOf(i: Item): string { ItemTypeLabel(i.itemType) }

  function ValueTypeLabelOf(i: Item): string { ValueTypeLabel(i.valueType) }

  /** `stats["itens"]`: status counts, type and value-type tables, and the
      numbers of items with preprocessing steps and with tags. */
  function ItemStatistics(items: seq<Item>): (st: ItemStats)
    ensures st.total == |items|
    ensures st.active + st.disabled <= st.total
    ensures Total(st.byType) == st.total && Total(st.byValueType) == st.total
    ensures st.withPreprocessing <= st.total && st.withTags <= st.total
  {
    CountIfDisjoint(items, ItemActive, ItemDisabled);
    ItemStats(
      |items|,
      CountIf(items, ItemActive),
      CountIf(items, ItemDisabled),
      Tally(Map(items, TypeLabelOf)),
      Tally(Map(items, ValueTypeLabelOf)),
      CountIf(items, ItemHasPreprocessing),
      CountIf(items, ItemHasTags))
  }

  /** `stats["triggers"]`: status counts, the priority table keyed by raw code,
      and the numbers of triggers with dependencies and with tags. */
  function TriggerStatistics(triggers: seq<Trigger>): (st: TriggerStats)
    ensures st.total == |triggers|
    ensures st.active + st.disabled <= st.total
    ensures Total(st.byPriority) == st.total
    ensures st.withDependencies <= st.total && st.withTags <= st.total
  {
    CountIfDisjoint(triggers, TriggerActive, TriggerDisabled);
    TriggerStats(
      |triggers|,
      CountIf(triggers, TriggerActive),
      CountIf(triggers, TriggerDisabled),
      Tally(Map(triggers, PriorityCodeOf)),
      CountIf(triggers, TriggerHasDependencies),
      CountIf(triggers, TriggerHasTags))
  }

  /** `gerar_estatisticas(itens, triggers)`: every item and every trigger
      counted once, in its list's total and in each frequency table. */
  function ComputeStatistics(items: seq<Item>, triggers: seq<Trigger>): (r: Statistics)
    ensures r.items.total == |items| && r.triggers.total == |triggers|
    ensures Total(r.items.byType) == |items| && Total(r.items.byValueType) == |items|
    ensures Total(r.triggers.byPriority) == |triggers|
  {
    Statistics(ItemStatistics(items), TriggerStatistics(triggers))
  }

  /** Counting one more item: the total grows by one, and each of the four
      counts grows by one exactly when the new item has the property that count
      is about (status "0", status "1", a preprocessing step, a tag). With the
      empty list, where the bounds force every count to zero, this determines
      every count. */
  lemma ItemCountsStep(items: seq<Item>, x: Item)
    ensures var before, after := ItemStatistics(items), ItemStatistics(items + [x]);
      && after.total == before.total + 1
      && after.active == before.active + (if x.status == Some("0") then 1 else 0)
      && after.disabled == before.disabled + (if x.status == Some("1") then 1 else 0)
      && after.withPreprocessing == before.withPreprocessing + (if |x.preprocessing| != 0 then 1 else 0)
      && after.withTags == before.withTags + (if |x.tags| != 0 then 1 else 0)
  {
    CountIfSnoc(items, x, ItemActive);
    CountIfSnoc(items, x, ItemDisabled);
    CountIfSnoc(items, x, ItemHasPreprocessing);
    CountIfSnoc(items, x, ItemHasTags);
  }

  /** Counting one more trigger, likewise for status "0", status "1", a
      dependency and a tag. */
  lemma TriggerCountsStep(triggers: seq<Trigger>, x: Trigger)
    ensures var before, after := TriggerStatistics(triggers), TriggerStatistics(triggers + [x]);
      && after.total == before.total + 1
      && after.active == before.active + (if x.status == Some("0") then 1 else 0)
      && after.disabled == before.disabled + (if x.status == Some("1") then 1 else 0)
      && after.withDependencies == before.withDependencies + (if |x.dependencies| != 0 then 1 else 0)
      && after.withTags == before.withTags + (if |x.tags| != 0 then 1 else 0)
  {
    CountIfSnoc(triggers, x, TriggerActive);
    CountIfSnoc(triggers, x, TriggerDisabled);
    CountIfSnoc(triggers, x, TriggerHasDependencies);
    CountIfSnoc(triggers, x, TriggerHasTags);
  }

  lemma {:induction false} StatusPartition(items: seq<Item>)
    ensures CountIf(items, ItemActive) + CountIf(items, ItemDisabled) + CountIf(items, ItemOtherStatus) == |items|
  {
    if |items| != 0 {
      StatusPartition(items[1..]);
    }
  }

  /** Active plus disabled items never exceed the total; they reach it exactly
      when every status is "0" or "1"; the rest are the items with any other
      (or no) status, which only the total counts. */
  lemma ItemStatusCounts(items: seq<Item>)
    ensures var st := ItemStatistics(items);
      && st.active + st.disabled + CountIf(items, ItemOtherStatus) == st.total
      && (st.active + st.disabled == st.total <==>
          forall i :: 0 <= i < |items| ==> ItemActive(items[i]) || ItemDisabled(items[i]))
  {
    var st := ItemStatistics(items);
    assert st.active == CountIf(items, ItemActive) && st.disabled == CountIf(items, ItemDisabled);
    StatusPartition(items);
    CountIfDisjoint(items, ItemActive, ItemDisabled);
  }

  /** Each item lands in exactly one bucket of the type table: the table has no
      repeated label, every item's label is one of its keys, and every key is
      the label of some item, so a table label or "Desconhecido". */
  lemma TypeTableShape(items: seq<Item>)
    ensures var t := ItemStatistics(items).byType;
      && DistinctKeys(t)
      && (forall i :: 0 <= i < |items| ==> ItemTypeLabel(items[i].itemType) in Keys(t))
      && (forall j :: 0 <= j < |t| ==> t[j].0 in ITEM_TYPES.Values || t[j].0 == UNKNOWN)
  {
    TallyOfMap(items, TypeLabelOf);
  }

  /** An item carries a known type's label exactly when it has that type code. */
  lemma TypeLabelIs(i: Item, code: string)
    requires code in ITEM_TYPES
    ensures TypeLabelOf(i) == ITEM_TYPES[code] <==> i.itemType == code
  {
    if i.itemType in ITEM_TYPES && TypeLabelOf(i) == ITEM_TYPES[code] {
      ItemTypeLabelsDistinct(i.itemType, code);
    }
  }

  /** A known code's bucket counts exactly the items with that code. */
  lemma TypeBucketKnown(items: seq<Item>, code: string)
    requires code in ITEM_TYPES
    ensures Get(ItemStatistics(items).byType, ITEM_TYPES[code]) == CountIf(items, (i: Item) => i.itemType == code)
  {
    forall i | 0 <= i < |items| ensures TypeLabelOf(items[i]) == ITEM_TYPES[code] <==> items[i].itemType == code {
      TypeLabelIs(items[i], code);
    }
    BucketCount(items, TypeLabelOf, ITEM_TYPES[code], (i: Item) => i.itemType == code);
  }

  /** The "Desconhecido" bucket counts the items whose code the table does not know. */
  lemma TypeBucketUnknown(items: seq<Item>)
    ensures Get(ItemStatistics(items).byType, UNKNOWN) == CountIf(items, ItemUnknownType)
  {
    BucketCount(items, TypeLabelOf, UNKNOWN, ItemUnknownType);
  }

  /** The value-type table has the same shape as the type table. */
  lemma ValueTypeTableShape(items: seq<Item>)
    ensures var t := ItemStatistics(items).byValueType;
      && DistinctKeys(t)
      && (forall i :: 0 <= i < |items| ==> ValueTypeLabel(items[i].valueType) in Keys(t))
      && (forall j :: 0 <= j < |t| ==> t[j].0 in VALUE_TYPES.Values || t[j].0 == UNKNOWN)
  {
    TallyOfMap(items, ValueTypeLabelOf);
  }

  /** An item carries a known value type's label exactly when it has that code. */
  lemma ValueTypeLabelIs(i: Item, code: string)
    requires code in VALUE_TYPES
    ensures ValueTypeLabelOf(i) == VALUE_TYPES[code] <==> i.valueType == code
  {
    if i.valueType in VALUE_TYPES && ValueTypeLabelOf(i) == VALUE_TYPES[code] {
      ValueTypeLabelsDistinct(i.valueType, code);
    }
  }

  /** A known value type's bucket counts the items of that value type. */
  lemma ValueTypeBucketKnown(items: seq<Item>, code: string)
    requires code in VALUE_TYPES
    ensures Get(ItemStatistics(items).byValueType, VALUE_TYPES[code]) == CountIf(items, (i: Item) => i.valueType == code)
  {
    forall i | 0 <= i < |items| ensures ValueTypeLabelOf(items[i]) == VALUE_TYPES[code] <==> items[i].valueType == code {
      ValueTypeLabelIs(items[i], code);
    }
    BucketCount(items, ValueTypeLabelOf, VALUE_TYPES[code], (i: Item) => i.valueType == code);
  }

  /** The "Desconhecido" bucket counts the items with an unrecognised value type. */
  lemma ValueTypeBucketUnknown(items: seq<Item>)
    ensures Get(ItemStatistics(items).byValueType, UNKNOWN) == CountIf(items, ItemUnknownValueType)
  {
    BucketCount(items, ValueTypeLabelOf, UNKNOWN, ItemUnknownValueType);
  }

  /** The priority codes in the order the HTML summary card lists them. */
  const SUMMARY_ORDER: seq<string> := ["5", "4", "3", "2", "1", "0"]

  /** The "Triggers por Severidade" card: each priority's badge and count,
      highest priority first, a missing code counting 0. */
  function PrioritySummary(st: TriggerStats): (rows: seq<(Badge, nat)>)
    ensures |rows| == 6
    ensures forall i :: 0 <= i < 6 ==>
      rows[i] == (PriorityBadge(PriorityCode(5 - i)), Get(st.byPriority, PriorityCode(5 - i)))
    ensures forall i :: 0 <= i < 6 && PriorityCode(5 - i) !in Keys(st.byPriority) ==> rows[i].1 == 0
  {
    GetAbsent(st.byPriority);
    assert forall i :: 0 <= i < 6 ==> SUMMARY_ORDER[i] == PriorityCode(5 - i);
    Map(SUMMARY_ORDER, (code: string) => (PriorityBadge(code), Get(st.byPriority, code)))
  }

  lemma {:induction false} SixCodes(codes: seq<string>)
    requires forall i :: 0 <= i < |codes| ==> codes[i] in SUMMARY_ORDER
    ensures multiset(codes)["5"] + multiset(codes)["4"] + multiset(codes)["3"]
            + multiset(codes)["2"] + multiset(codes)["1"] + multiset(codes)["0"] == |codes|
  {
    if |codes| != 0 {
      var p := codes[..|codes| - 1];
      assert codes == p + [codes[|codes| - 1]];
      SixCodes(p);
    }
  }

  /** Two triggers share a priority code exactly when they share a priority. */
  lemma PriorityCodeIs(t: Trigger, p: Priority)
    ensures PriorityCodeOf(t) == PriorityCode(p) <==> PriorityOf(t) == p
  {
    assert PriorityCodeOf(t)[0] == DigitChar(PriorityOf(t));
    assert PriorityCode(p)[0] == DigitChar(p);
  }

  /** The bucket of priority `p` counts exactly the triggers of priority `p`. */
  lemma PriorityBucket(triggers: seq<Trigger>, p: Priority)
    ensures Get(TriggerStatistics(triggers).byPriority, PriorityCode(p))
            == CountIf(triggers, (t: Trigger) => PriorityOf(t) == p)
  {
    forall i | 0 <= i < |triggers| ensures PriorityCodeOf(triggers[i]) == PriorityCode(p) <==> PriorityOf(triggers[i]) == p {
      PriorityCodeIs(triggers[i], p);
    }
    BucketCount(triggers, PriorityCodeOf, PriorityCode(p), (t: Trigger) => PriorityOf(t) == p);
  }

  /** A trigger without a priority is counted under "0", together with the
      priority-0 triggers. */
  lemma MissingPriorityCountsAsZero(triggers: seq<Trigger>)
    ensures Get(TriggerStatistics(triggers).byPriority, "0") == CountIf(triggers, TriggerDefaultPriority)
  {
    forall i | 0 <= i < |triggers| ensures PriorityCodeOf(triggers[i]) == "0" <==> TriggerDefaultPriority(triggers[i]) {
      PriorityCodeIs(triggers[i], 0);
    }
    BucketCount(triggers, PriorityCodeOf, "0", TriggerDefaultPriority);
  }

  /** The six rows of the severity card account for every trigger. */
  lemma PrioritySummaryTotal(triggers: seq<Trigger>)
    ensures var st := TriggerStatistics(triggers);
      var rows := PrioritySummary(st);
      rows[0].1 + rows[1].1 + rows[2].1 + rows[3].1 + rows[4].1 + rows[5].1 == st.total
  {
    var codes := Map(triggers, PriorityCodeOf);
    forall i | 0 <= i < |codes| ensures codes[i] in SUMMARY_ORDER {
      var p := PriorityOf(triggers[i]);
      assert codes[i] == PriorityCode(p);
    }
    SixCodes(codes);
  }

  /** The bars of "Itens por Tipo de Coleta": the eight most common types. */
  function TypeChart(st: ItemStats): Counter<string>
  {
    MostCommon(st.byType, 8)
  }

  /** The bars of "Itens por Tipo de Valor": every value type, most common first. */
  function ValueChart(st: ItemStats): Counter<string>
  {
    Ranked(st.byValueType)
  }

  /** The count a full-width type bar stands for: the largest count among the
      bars shown, 1 when there are none. */
  function TypeBarScale(st: ItemStats): nat
  {
    var bars := TypeChart(st);
    if |bars| != 0 then MaxCount(bars) else 1
  }

  /** The count a full-width value-type bar stands for: the largest count of
      the table, 1 when it is empty. */
  function ValueBarScale(st: ItemStats): nat
  {
    if |st.byValueType| != 0 then MaxCount(st.byValueType) else 1
  }

  /** Type bar widths are well defined and at most full: at most eight bars,
      a positive scale, no bar above it, and for a non-empty host the first
      bar is the full-width one, holding the largest count of the whole table. */
  lemma TypeChartScale(items: seq<Item>)
    ensures var st := ItemStatistics(items);
      && |TypeChart(st)| <= 8
      && TypeBarScale(st) > 0
      && (forall i :: 0 <= i < |TypeChart(st)| ==> TypeChart(st)[i].1 <= TypeBarScale(st))
      && (|items| != 0 ==> TypeChart(st)[0].1 == TypeBarScale(st) == MaxCount(st.byType))
  {
    var st := ItemStatistics(items);
    if |items| != 0 {
      assert |st.byType| != 0;
      MostCommonHeadIsMax(st.byType, 8);
      MaxCountPositive(st.byType);
    }
  }

  /** Value-type bar widths likewise: a positive scale, no bar above it, and
      for a non-empty host the first bar at full width. */
  lemma ValueChartScale(items: seq<Item>)
    ensures var st := ItemStatistics(items);
      && ValueBarScale(st) > 0
      && (forall i :: 0 <= i < |ValueChart(st)| ==> ValueChart(st)[i].1 <= ValueBarScale(st))
      && (|items| != 0 ==> ValueChart(st)[0].1 == ValueBarScale(st))
  {
    var st := ItemStatistics(items);
    var t := st.byValueType;
    if |items| != 0 {
      assert |t| != 0;
      MostCommonHeadIsMax(t, |t|);
      assert MostCommon(t, |t|) == ValueChart(st);
      MaxCountPositive(t);
      forall i | 0 <= i < |ValueChart(st)| ensures ValueChart(st)[i].1 <= ValueBarScale(st) {
        assert ValueChart(st)[i] in multiset(t);
      }
    }
  }

  lemma TallyOne(a: string)
    ensures Tally([a]) == [(a, 1)]
  {
    assert [a][..0] == [];
  }

  lemma TallyPair(a: string)
    ensures Tally([a, a]) == [(a, 2)]
  {
    assert [a, a][..1] == [a];
    TallyOne(a);
  }

  lemma TallyFiveThreeThree()
    ensures Tally(["5", "3", "3"]) == [("5", 1), ("3", 2)]
  {
    assert ["5", "3"][..1] == ["5"];
    TallyOne("5");
    assert Tally(["5", "3"]) == Bump([("5", 1)], "3");
    assert [("5", 1)][1..] == [];
    assert Bump([("5", 1)], "3") == [("5", 1), ("3", 1)];
    assert ["5", "3", "3"][..2] == ["5", "3"];
    assert [("5", 1), ("3", 1)][1..] == [("3", 1)];
    assert Bump([("3", 1)], "3") == [("3", 2)];
  }

  /** Two agent items, one active and one disabled: totals 2, 1 and 1, and a
      single type bucket holding both. */
  lemma ItemStatisticsExample()
    ensures var st := ItemStatistics([
        Item("CPU", "cpu", "0", "0", "-", "-", Some("0"), [], []),
        Item("Disk", "disk", "0", "3", "-", "-", Some("1"), [], [])]);
      && st.total == 2 && st.active == 1 && st.disabled == 1
      && st.byType == [("Zabbix agent", 2)]
  {
    var items := [
        Item("CPU", "cpu", "0", "0", "-", "-", Some("0"), [], []),
        Item("Disk", "disk", "0", "3", "-", "-", Some("1"), [], [])];
    var labels := Map(items, TypeLabelOf);
    assert labels == ["Zabbix agent", "Zabbix agent"];
    TallyPair("Zabbix agent");
    assert CountIf(items[1..], ItemActive) == 0;
    assert CountIf(items[1..], ItemDisabled) == 1;
  }

  /** Triggers of priorities 5, 3 and 3, two of them active: the priority
      buckets appear in first-seen order, "5" before "3". */
  lemma TriggerStatisticsExample()
    ensures var st := TriggerStatistics([
        Trigger("Down", "", Some(5), Some("0"), [], "", []),
        Trigger("Load", "", Some(3), Some("0"), [], "", []),
        Trigger("Swap", "", Some(3), Some("1"), [], "", [])]);
      && st.total == 3 && st.active == 2 && st.disabled == 1
      && st.byPriority == [("5", 1), ("3", 2)]
  {
    var triggers := [
        Trigger("Down", "", Some(5), Some("0"), [], "", []),
        Trigger("Load", "", Some(3), Some("0"), [], "", []),
        Trigger("Swap", "", Some(3), Some("1"), [], "", [])];
    var codes := Map(triggers, PriorityCodeOf);
    assert codes == ["5", "3", "3"];
    TallyFiveThreeThree();
    assert CountIf(triggers[2..], TriggerActive) == 0;
    assert CountIf(triggers[1..], TriggerActive) == 1;
    assert CountIf(triggers[2..], TriggerDisabled) == 1;
    assert CountIf(triggers[1..], TriggerDisabled) == 1;
  }
}

=== FILE: tables.dfy ===
/** The static reference tables that turn the monitoring system's codes into
    display labels and colours (export-gerencial.py:24-65), each looked up with
    an explicit fallback for a code the table does not know. */
module Tables {
  import opened Seqs
  import opened Decimal

  /** Fallback label for an unrecognised code. */
  const UNKNOWN := "Desconhecido"

  /** Fallback colour for an unrecognised priority or status. */
  const UNKNOWN_COLOR := "#888"

  /** A label with its display colour. */
  datatype Badge = Badge(name: string, color: string)

  const UNKNOWN_BADGE := Badge(UNKNOWN, UNKNOWN_COLOR)

  /** `ITEM_TYPES`: how an item's data is collected. */
  const ITEM_TYPES: map<string, string> := map[
    "0" := "Zabbix agent",
    "2" := "Zabbix trapper",
    "3" := "Simple check",
    "5" := "Zabbix internal",
    "7" := "Zabbix agent (active)",
    "9" := "Web item",
    "10" := "External check",
    "11" := "Database monitor",
    "12" := "IPMI agent",
    "13" := "SSH agent",
    "14" := "Telnet agent",
    "15" := "Calculated",
    "16" := "JMX agent",
    "17" := "SNMP trap",
    "18" := "Dependent item",
    "19" := "HTTP agent",
    "20" := "SNMP agent",
    "21" := "Script"
  ]

  /** `VALUE_TYPES`: the type of the values an item stores. */
  const VALUE_TYPES: map<string, string> := map[
    "0" := "Numérico (float)",
    "1" := "Caractere",
    "2" := "Log",
    "3" := "Numérico (inteiro)",
    "4" := "Texto"
  ]

  /** `TRIGGER_PRIORITIES`: trigger priority and problem severity, 0 to 5. */
  const TRIGGER_PRIORITIES: map<string, Badge> := map[
    "0" := Badge("Não classificada", "#97AAB3"),
    "1" := Badge("Informação", "#7499FF"),
    "2" := Badge("Aviso", "#FFC859"),
    "3" := Badge("Média", "#FFA059"),
    "4" := Badge("Alta", "#E97659"),
    "5" := Badge("Desastre", "#E45959")
  ]

  /** `STATUS_MAP`: item and trigger status. */
  const STATUS_MAP: map<string, Badge> := map[
    "0" := Badge("Ativo", "#4CAF50"),
    "1" := Badge("Desabilitado", "#F44336")
  ]

  /** `ITEM_TYPES.get(code, "Desconhecido")`. */
  function ItemTypeLabel(code: string): (r: string)
    ensures r == UNKNOWN <==> code !in ITEM_TYPES
    ensures r in ITEM_TYPES.Values || r == UNKNOWN
  {
    if code in ITEM_TYPES then ITEM_TYPES[code] else UNKNOWN
  }

  /** `VALUE_TYPES.get(code, "Desconhecido")`. */
  function ValueTypeLabel(code: string): (r: string)
    ensures r == UNKNOWN <==> code !in VALUE_TYPES
    ensures r in VALUE_TYPES.Values || r == UNKNOWN
  {
    if code in VALUE_TYPES then VALUE_TYPES[code] else UNKNOWN
  }

  /** `TRIGGER_PRIORITIES.get(code, ("Desconhecido", "#888"))`. */
  function PriorityBadge(code: string): (b: Badge)
    ensures b == UNKNOWN_BADGE <==> code !in TRIGGER_PRIORITIES
    ensures b.name == UNKNOWN <==> code !in TRIGGER_PRIORITIES
  {
    if code in TRIGGER_PRIORITIES then TRIGGER_PRIORITIES[code] else UNKNOWN_BADGE
  }

  /** `STATUS_MAP.get(code, ("Desconhecido", "#888"))`. */
  function StatusBadge(code: string): (b: Badge)
    ensures b == UNKNOWN_BADGE <==> code !in STATUS_MAP
    ensures b.name == UNKNOWN <==> code !in STATUS_MAP
  {
    if code in STATUS_MAP then STATUS_MAP[code] else UNKNOWN_BADGE
  }

  /** Known item types have distinct labels, so a label names one collection type. */
  lemma ItemTypeLabelsDistinct(a: string, b: string)
    requires a in ITEM_TYPES && b in ITEM_TYPES
    requires ItemTypeLabel(a) == ItemTypeLabel(b)
    ensures a == b
  {
  }

  /** Known value types have distinct labels. */
  lemma ValueTypeLabelsDistinct(a: string, b: string)
    requires a in VALUE_TYPES && b in VALUE_TYPES
    requires ValueTypeLabel(a) == ValueTypeLabel(b)
    ensures a == b
  {
  }

  /** A trigger priority or problem severity, after `int(...)`: 0 to 5. */
  type Priority = p: nat | p <= 5

  /** The raw code of a priority, the string the monitoring system sends. */
  function PriorityCode(p: Priority): (code: string)
    ensures code in TRIGGER_PRIORITIES
    ensures ParseNat(code) == Some(p as nat)
  {
    [DigitChar(p)]
  }
}
